=== FILE: README.md ===
# Arionum pool miner: control core in Dafny

This project models the sequential core of the Arionum pool miner's
coordinator, `Miner.java`. Each part is a pure step function over an explicit
state record:

- the 2-second control loop of `start`: the update phase with its first-run
  state machine, spawning, the `cycles`/`supercycles` wrap-around and the
  drain on every other tick;
- the pool-update task: the skip rule, the query parameters, the failure
  classification, and the field-by-field target comparison that decides
  whether workers are told and whether `bestDL` is reset;
- the worker pool bookkeeping: the `workers` table, the spawn-time table, the
  identity counter and the completed-session queue, through `addWorker`,
  `releaseWorker`, `updateWorkers`, `workerFinish` and `sessionFinish`;
- `refreshFromWorkers`: the drain of the completed-session queue into the
  process counters, and the proportional rebalancer on `hashesPerSession`;
- the retry loop of the `submit` task.

The HTTP exchanges arrive as `Reply` values (an I/O error, or a status code
with a decoded body). The clock arrives as explicit `now` arguments. A
worker's own `isActive` flag arrives as a set of active identities. The
external `hasherCount` and the opaque identity suffix produced by
`php_uniqid` arrive as tick inputs. Java's `(long)` cast of a double is
modelled as truncation toward zero over exact reals.

Modules:

| file | module | contents |
|---|---|---|
| base.dfy | Base | `Option`, `Reply`/`Body`, truncation toward zero, decimal rendering of counters |
| chain.dfy | ChainState | the held target (block, difficulty, limit, height, public key) |
| stats.dfy | Stats | session records, counters, the drain of the queue |
| rebalancer.dfy | Rebalancer | per-session contribution and the quantum update |
| workers.dfy | Workers | identities, the live table, spawn / finish bookkeeping |
| poolsync.dfy | PoolSync | one run of the pool-update task |
| submission.dfy | Submission | the submit retry loop |
| miner.dfy | Miner | the control loop, startup, hash-rate window, run invariants |

Four behaviours of the code are easy to misread; the model follows the code:

- The submit task gives up on the sixth failure: it checks `failures > 5` (Miner.java:1016).
- The rebalancer truncates the averaged adjustment toward zero; it does not round it (Miner.java:762).
- A pool-update reply whose JSON cannot be decoded is not counted as a failure. The exception escapes the update task before `failures++` (Miner.java:396, 405) and leaves `failures` unchanged.
- A reply that changes only the limit (or the public key) updates the held target but does not notify the workers. Only a block, difficulty or height change triggers `updateWorkers` (Miner.java:407-441).


## Model

| member | source | states |
|---|---|---|
| Base.TruncateTowardZero | app/src/main/java/com/programmerdan/arionum/arionum_miner/Miner.java:762 | Java's `(long)` cast of a double is within one of its argument and never rounds away from zero, for either sign |
| Base.TruncateQuotient | app/src/main/java/com/programmerdan/arionum/arionum_miner/Miner.java:737-748 | For non-negative integers, truncating the exact quotient (or its negation) gives integer division (or its negation) |
| Base.NatToString | app/src/main/java/com/programmerdan/arionum/arionum_miner/Miner.java:530 | The identity counter is rendered as a non-empty run of decimal digits |
| Base.ParseNatToString | app/src/main/java/com/programmerdan/arionum/arionum_miner/Miner.java:530 | Reading the rendered counter back gives the counter |
| Stats.DrainFrom | app/src/main/java/com/programmerdan/arionum/arionum_miner/Miner.java:685-703 | Draining the queue counts one run per record and leaves the submit and reject counters alone |
| Stats.Absorb | app/src/main/java/com/programmerdan/arionum/arionum_miner/Miner.java:685-703 | One polled record counts one run and raises the report and the hashes, shares and finds counters by the same amounts, the record's own; submits and rejects are untouched |
| Stats.DrainTotals | app/src/main/java/com/programmerdan/arionum/arionum_miner/Miner.java:685-703 | After the drain, the report and the hashes, shares and finds counters have each risen by exactly the queue's field totals |
| Stats.DrainConcat | app/src/main/java/com/programmerdan/arionum/arionum_miner/Miner.java:685-703 | Draining two batches in turn equals draining their concatenation, so how records split across drains does not change the totals |
| Rebalancer.Contribution | app/src/main/java/com/programmerdan/arionum/arionum_miner/Miner.java:737-751 | An on-target session contributes 0. A short session contributes between 0 and half its hashes. A long session contributes between minus half its hashes and 0 |
| Rebalancer.HalfGap | app/src/main/java/com/programmerdan/arionum/arionum_miner/Miner.java:738-745 | The product `hashes · .5 · gap`, for a gap in [0, 1], lies between 0 and half the hashes |
| Rebalancer.ContributionInIntegers | app/src/main/java/com/programmerdan/arionum/arionum_miner/Miner.java:737-748 | The exact-real contribution equals `h·(L−t) div 2L` for a short session and `−(h·(t−L) div 2t)` for a long one |
| Rebalancer.ShortContributionExact | app/src/main/java/com/programmerdan/arionum/arionum_miner/Miner.java:737-742 | Short-session branch of the integer form |
| Rebalancer.LongContributionExact | app/src/main/java/com/programmerdan/arionum/arionum_miner/Miner.java:743-748 | Long-session branch of the integer form, with the negation applied after truncation |
| Rebalancer.ShortSessionExample | app/src/main/java/com/programmerdan/arionum/arionum_miner/Miner.java:737-742 | 1000 hashes in 4000 ms against a 5000 ms target recommend 100 more hashes |
| Rebalancer.HalfTargetNeedsFourHashes | app/src/main/java/com/programmerdan/arionum/arionum_miner/Miner.java:737-742 | At half the target, three hashes truncate to no change and four give +1 |
| Rebalancer.SumContributions | app/src/main/java/com/programmerdan/arionum/arionum_miner/Miner.java:737-751 | The adjustment summed over a batch: 0 for an empty batch, and for non-negative hashes and times within ± half the batch's total hashes |
| Rebalancer.Average | app/src/main/java/com/programmerdan/arionum/arionum_miner/Miner.java:762 | The averaged adjustment is the sum divided by the sample count, truncated toward zero for either sign: `sum div n` for a non-negative sum, `−((−sum) div n)` for a negative one. It has the sign of the sum and at most its magnitude |
| Rebalancer.Rebalance | app/src/main/java/com/programmerdan/arionum/arionum_miner/Miner.java:761-766 | An empty batch leaves the quantum unchanged. A non-empty batch yields quantum plus average when that is at least 1, and exactly 1 otherwise |
| Rebalancer.SumAtTargetIsZero | app/src/main/java/com/programmerdan/arionum/arionum_miner/Miner.java:749-751 | A batch of sessions that all hit the target sums to no adjustment |
| Rebalancer.AtTargetUnchanged | app/src/main/java/com/programmerdan/arionum/arionum_miner/Miner.java:737-766 | The controller's fixed point: sessions on target leave a valid quantum unchanged |
| Rebalancer.SumBounded | app/src/main/java/com/programmerdan/arionum/arionum_miner/Miner.java:737-751 | With at most `H` hashes per session, twice the summed adjustment lies within ±(count·H) |
| Rebalancer.StepIsDamped | app/src/main/java/com/programmerdan/arionum/arionum_miner/Miner.java:737-766 | Damping: one step moves the quantum by at most half the largest session's hashes, up or down |
| Rebalancer.SumShortAtLeastCount | app/src/main/java/com/programmerdan/arionum/arionum_miner/Miner.java:737-742 | Sessions short enough to recommend a hash each sum to at least the batch size |
| Rebalancer.ShortSessionsIncrease | app/src/main/java/com/programmerdan/arionum/arionum_miner/Miner.java:737-766 | Such sessions strictly raise the quantum |
| Rebalancer.SumLongAtMostMinusCount | app/src/main/java/com/programmerdan/arionum/arionum_miner/Miner.java:743-748 | Sessions strictly longer than needed to recommend one hash fewer (`2t < h·(t−L)`) each sum to at most minus the batch size |
| Rebalancer.LongSessionsDecrease | app/src/main/java/com/programmerdan/arionum/arionum_miner/Miner.java:743-766 | Such sessions strictly lower a quantum above the floor |
| Workers.MakeId | app/src/main/java/com/programmerdan/arionum/arionum_miner/Miner.java:530 | An identity is the counter's decimal digits, one `]`, then the suffix unchanged |
| Workers.IndexOf | app/src/main/java/com/programmerdan/arionum/arionum_miner/Miner.java:530 | Finds the first `]` of an identity, or reports there is none |
| Workers.CounterOfMakeId | app/src/main/java/com/programmerdan/arionum/arionum_miner/Miner.java:530 | An identity `counter + "]" + suffix` gives back its counter, whatever the suffix |
| Workers.MakeIdInjective | app/src/main/java/com/programmerdan/arionum/arionum_miner/Miner.java:530 | Identities minted from different counters never collide, whatever the suffixes |
| Workers.AddWorker | app/src/main/java/com/programmerdan/arionum/arionum_miner/Miner.java:570-572 | The key set gains the identity, the entry is the new handle, and the other entries are kept |
| Workers.ReleaseWorker | app/src/main/java/com/programmerdan/arionum/arionum_miner/Miner.java:574-576 | The key set loses the identity (absent is a no-op), and the other entries are kept |
| Workers.UpdateWorkers | app/src/main/java/com/programmerdan/arionum/arionum_miner/Miner.java:581-587 | Same key set. Active workers get the new target. Inactive ones are untouched. No quantum or budget changes |
| Workers.Spawn | app/src/main/java/com/programmerdan/arionum/arionum_miner/Miner.java:529-536 | The counter advances by one. The new identity is fresh and carries the counter. The worker gets the quantum, twice the session length and the target. Its spawn time is stamped. The live table grows by exactly one |
| Workers.Scheduled | app/src/main/java/com/programmerdan/arionum/arionum_miner/Miner.java:645-648 | With a spawn stamp on record the scheduled time reaches back from now to the stamp; without one it falls back to the session's hash time. It is never negative when the stamp is not in the future and the hash time is non-negative |
| Workers.Retire | app/src/main/java/com/programmerdan/arionum/arionum_miner/Miner.java:642-648 | The record is queued with its scheduled time, the finished worker leaves with every other entry kept, and its spawn stamp is consumed |
| Workers.WorkerFinish | app/src/main/java/com/programmerdan/arionum/arionum_miner/Miner.java:641-656 | The record is queued last with its scheduled time, from the spawn stamp or the session's hash time when none exists. The worker leaves and one fresh worker joins, created with the current quantum, twice the session length and the current target; every other live worker keeps its entry. The spawn stamp is consumed and a new one is set |
| Workers.SessionFinish | app/src/main/java/com/programmerdan/arionum/arionum_miner/Miner.java:663-671 | The record is queued with its scheduled time. The spawn stamp is re-set to now. The live table is untouched. The worker gets the quantum and twice the session length |
| PoolSync.InfoQuery | app/src/main/java/com/programmerdan/arionum/arionum_miner/Miner.java:351-364 | The worker always goes. The address goes iff this is the first run or the hash rate goes. The hash rate goes iff `!sentSpeed && supercycles > 15`. `sentSpeed` is set iff the hash rate went or was already sent |
| PoolSync.ApplyOk | app/src/main/java/com/programmerdan/arionum/arionum_miner/Miner.java:405-471 | The target is replaced wholesale. `bestDL` is reset iff the block changed. Workers are told iff block, difficulty or height changed. The report window closes when older than 45 s |
| PoolSync.UpdateCall | app/src/main/java/com/programmerdan/arionum/arionum_miner/Miner.java:339-489 | Skipped iff `cycles > 0` and less than 1000 ms passed since `lastUpdate`. Failed iff I/O error, non-200 or non-"ok". Succeeded iff "ok" with data. A failure or crash leaves the target alone. Every request moves `lastUpdate` |
| PoolSync.LimitOnlyChangeNotBroadcast | app/src/main/java/com/programmerdan/arionum/arionum_miner/Miner.java:420-443 | A reply changing only the limit stores it without telling the workers or resetting `bestDL` |
| PoolSync.IdenticalRepeat | app/src/main/java/com/programmerdan/arionum/arionum_miner/Miner.java:405-443 | The same "ok" reply twice: the second neither broadcasts nor changes the target or `bestDL` |
| PoolSync.TargetNeverMixed | app/src/main/java/com/programmerdan/arionum/arionum_miner/Miner.java:405-437 | For replies that decode completely: after any task, the target is the previous one or entirely the reply's |
| PoolSync.FirstUpdateBroadcasts | app/src/main/java/com/programmerdan/arionum/arionum_miner/Miner.java:405-443 | A fresh miner's first success always tells the workers and resets `bestDL` |
| Submission.AfterPass | app/src/main/java/com/programmerdan/arionum/arionum_miner/Miner.java:1016-1025 | Past five failures: the submit task ends with one more reject and a not-accepted event carrying the failure count. Otherwise: a `50·failures` ms sleep is recorded when there were failures. Counters are untouched |
| Submission.Classify | app/src/main/java/com/programmerdan/arionum/arionum_miner/Miner.java:981-1015 | A pass counts itself, a submit iff the request was written, and a failure iff transport failed. A verdict ends the task with one event and a reject iff not "ok". An empty 200 body ends it as an escaped exception with no verdict. Anything else changes nothing further |
| Submission.Step | app/src/main/java/com/programmerdan/arionum/arionum_miner/Miner.java:945-1025 | One pass. A submit is counted iff the request was written. Failures grow by one exactly on a transport failure. A JSON error under the cap neither ends the submit task nor counts a reject. Crossing five failures ends it with one reject and one not-accepted event carrying the failure count. Otherwise, at `n` failures so far it sleeps `50·n` ms (none at 0). An empty 200 reply ends it at once with no reject, no event and no sleep |
| Submission.Run | app/src/main/java/com/programmerdan/arionum/arionum_miner/Miner.java:944-1026 | The loop stops at the first pass that ends it |
| Submission.StepKeepsInv | app/src/main/java/com/programmerdan/arionum/arionum_miner/Miner.java:945-1025 | A pass keeps the loop invariant. Before the end: at most five failures, no reject, no event. At the end: exactly one event carrying the failure count, and one reject iff the event is not an acceptance. Backoffs are non-decreasing, between 50 ms and 50 ms per failure |
| Submission.RunKeepsInv | app/src/main/java/com/programmerdan/arionum/arionum_miner/Miner.java:944-1026 | The invariant holds after any sequence of passes |
| Submission.SubmitOutcome | app/src/main/java/com/programmerdan/arionum/arionum_miner/Miner.java:944-1026 | Whatever the network does, a submission counts at most one reject and emits at most one telemetry event, and only when it ends |
| Submission.VerdictEnds | app/src/main/java/com/programmerdan/arionum/arionum_miner/Miner.java:985-1006 | A readable verdict ends the submit task. A non-"ok" status counts one reject. Telemetry carries the failure count so far |
| Submission.JsonErrorNeutral | app/src/main/java/com/programmerdan/arionum/arionum_miner/Miner.java:1013-1015 | An unreadable 200 body neither counts a failure nor ends the submit task |
| Submission.GivesUpOnSixthFailure | app/src/main/java/com/programmerdan/arionum/arionum_miner/Miner.java:1016-1025 | Six transport failures end the submit task with one reject and one not-accepted event with 6 retries, after backoffs of 50, 100, 150, 200 and 250 ms |
| Submission.TransportRetry | app/src/main/java/com/programmerdan/arionum/arionum_miner/Miner.java:1016-1025 | A transport failure below the cap keeps the submit task going, counts one failure and sleeps 50 ms per failure so far, with no reject and no event |
| Submission.JsonErrorsNeverEnd | app/src/main/java/com/programmerdan/arionum/arionum_miner/Miner.java:1013-1025 | As written: any number of unreadable 200 replies leave the submit task running with no failures counted and no backoff |
| Submission.RunSplitLast | app/src/main/java/com/programmerdan/arionum/arionum_miner/Miner.java:944-1026 | One more pass after a prefix equals running the prefix, then that pass |
| Submission.StepCorrected | app/src/main/java/com/programmerdan/arionum/arionum_miner/Miner.java:1013-1025 | Corrected pass: every pass either ends the submit task or counts one failure |
| Submission.RunCorrected | app/src/main/java/com/programmerdan/arionum/arionum_miner/Miner.java:944-1026 | The corrected loop stops at the first pass that ends it |
| Submission.CorrectedAlwaysEnds | app/src/main/java/com/programmerdan/arionum/arionum_miner/Miner.java:1016-1025 | Corrected: whatever the network does, the submit task ends within `6 − failures` passes |
| Miner.UpdatePhase | app/src/main/java/com/programmerdan/arionum/arionum_miner/Miner.java:336-526 | The counters, quantum, queue, spawn stamps and live key set are untouched. After the first run, control is unchanged. During the first run: a success ends the first run with nothing counted; a FALSE result counts one attempt and a crash none, and either deactivates the miner exactly when the count exceeds 15; a skip counts one and tries again. `active` is cleared only this way |
| Miner.RefreshDue | app/src/main/java/com/programmerdan/arionum/arionum_miner/Miner.java:546-557 | For `cycles` in [0,30], the drain runs exactly on even counts |
| Miner.Refresh | app/src/main/java/com/programmerdan/arionum/arionum_miner/Miner.java:676-766 | The queue is emptied. Hashes, shares and finds rise by the queue's totals. An empty queue leaves the quantum alone, otherwise it is at least 1. Nothing else changes |
| Miner.SpawnIfRoom | app/src/main/java/com/programmerdan/arionum/arionum_miner/Miner.java:529-536 | A worker is minted exactly when `hasherCount < maxHashers`, under a fresh identity, with the current quantum, twice the session length and the current target, and a spawn stamp of now, while every existing worker keeps its entry; otherwise the miner is unchanged. Identities stay valid |
| Miner.WrapCounters | app/src/main/java/com/programmerdan/arionum/arionum_miner/Miner.java:546-553 | `cycles` wraps 30→0. `supercycles` wraps 300→0 and clears `sentSpeed`, making the hash rate due again. Nothing else changes: `active`, `firstRun`, the attempt count, the rest of the sync state, the pool, quantum and counters are kept |
| Miner.FinishTick | app/src/main/java/com/programmerdan/arionum/arionum_miner/Miner.java:529-562 | The tick facts below hold for the post-update part of a tick |
| Miner.TickAsWritten | app/src/main/java/com/programmerdan/arionum/arionum_miner/Miner.java:333-562 | One tick as written. `cycles` ends in [1,30] and `supercycles` in [1,300]. The queue is drained exactly on `RefreshDue`, and otherwise the queue, quantum and counters are untouched. The quantum stays at least 1. Identities stay valid. After the first run, `active` is unchanged |
| Miner.Tick | app/src/main/java/com/programmerdan/arionum/arionum_miner/Miner.java:333-562 | The same facts for the corrected tick. After the first run, the attempt count is also kept |
| Miner.PhaseCountsAtMostTwo | app/src/main/java/com/programmerdan/arionum/arionum_miner/Miner.java:336-526 | With a monotone clock and the 5 s retry sleep, one update phase counts at most two first-run attempts |
| Miner.AsWrittenCapUnreachable | app/src/main/java/com/programmerdan/arionum/arionum_miner/Miner.java:335-517 | As written, no tick's startup cap fires: `active` is unchanged and the count stays ≤ 2 |
| Miner.FailingFirstRunTick | app/src/main/java/com/programmerdan/arionum/arionum_miner/Miner.java:491-526 | A first-run tick whose request fails counts one attempt. It deactivates iff the count passes 15 |
| Miner.AsWrittenNeverGivesUp | app/src/main/java/com/programmerdan/arionum/arionum_miner/Miner.java:333-526 | As written: after any number of failed first-run syncs, the miner is still active and still in its first run |
| Miner.CorrectedGivesUp | app/src/main/java/com/programmerdan/arionum/arionum_miner/Miner.java:491-526 | Corrected: 16 failed first-run syncs in total deactivate the miner |
| Miner.PhaseSendsHashrateOnce | app/src/main/java/com/programmerdan/arionum/arionum_miner/Miner.java:351-364 | Within one update phase, the hash rate goes out at most once and only if not yet sent. Once set, `sentSpeed` stays set |
| Miner.TickSendsHashrateOnce | app/src/main/java/com/programmerdan/arionum/arionum_miner/Miner.java:351-553 | The same per tick. The window survives unless the tick starts at supercycle 300 |
| Miner.HashrateOncePerWindow | app/src/main/java/com/programmerdan/arionum/arionum_miner/Miner.java:351-562 | Over ticks that do not cross a window reset, the hash rate goes out at most once, and not at all if it was already sent |
| Miner.OnWorkerFinish | app/src/main/java/com/programmerdan/arionum/arionum_miner/Miner.java:641-656 | The finished session is appended to the queue. The finished worker leaves and the replacement joins under a fresh identity, created with the current quantum, twice the session length and the current target. Every other live worker keeps its entry, the finished session's stamp is consumed and the replacement's set to now, and nothing outside the pool changes |
| Miner.FinishedSessionIsCounted | app/src/main/java/com/programmerdan/arionum/arionum_miner/Miner.java:641-703 | A finished session's hashes, shares and finds reach the counters at the next drain, exactly once |
| Miner.Init | app/src/main/java/com/programmerdan/arionum/arionum_miner/Miner.java:142-146 | The miner starts active in its first run with no attempts, zero cycles and counters, quantum 10, session length 5000, no workers, no block or difficulty, and `bestDL` at its maximum; it satisfies the invariant |
| Miner.RunKeepsInv | app/src/main/java/com/programmerdan/arionum/arionum_miner/Miner.java:333-562 | Over any run of ticks, as written or corrected: quantum ≥ 1, `cycles` in [0,30], `supercycles` in [0,300], and every live identity minted below the counter (so none collide) |
| Miner.OnSessionFinish | app/src/main/java/com/programmerdan/arionum/arionum_miner/Miner.java:663-671 | The reported session is appended to the queue with its scheduled time and the worker's stamp is re-set to now; the live table, counter, quantum and control are untouched |
| Miner.EventsKeepInv | app/src/main/java/com/programmerdan/arionum/arionum_miner/Miner.java:332-671 | The same invariant holds over any interleaving of ticks, worker deaths and session reports, as written or corrected |
| Miner.RefreshAlternates | app/src/main/java/com/programmerdan/arionum/arionum_miner/Miner.java:546-562 | From `cycles` in [0,30], whether the drain runs flips from each tick to the next, across the 30→0 wrap too |

## Left out

- HTTP, URL encoding and JSON parsing are not modelled. Replies arrive already classified as `Reply`/`Body`: no line to read (`Empty`, which makes the code throw a NullPointerException), a body the JSON library refuses (`Malformed`), or a status with optional data.
- PoolSync.TargetNeverMixed: holds only for replies that decode completely. The update task stores the block, `bestDL`, `lastBlockUpdate`, difficulty, limit and public key one by one (Miner.java:407-432) before the `(Long)` cast of the height at line 434, which throws when the JSON library hands back an `Integer`. After that throw the held target pairs the new block with the old height and `updateWorkers` does not run. The model treats such a reply as one decode error that changes nothing.
- Which Java type the JSON library returns for the height is not modelled. The source casts it with `(Long)` (Miner.java:434). The `org.json` implementation it imports (Miner.java:28-29) is not part of this model; if that library hands back an `Integer` for every height that fits in 32 bits, as common implementations do, the cast throws on every ordinary reply. The update task would then never return TRUE, the first run would never end, and `updateWorkers` would never run from it, although block and difficulty would still be stored. The model assumes the height decodes.
- Miner.UpdatePhase: an empty or exhausted attempt list ends the phase with no request sent and `firstRun` still set. The source cannot end this way, since after a skip it always tries again (Miner.java:336); it is an artefact of supplying the attempts as a finite input.
- Threads are not modelled: the executors, concurrent queues, atomics and the concurrency of the update task. After the first run that task is fired and not awaited; the model runs it to completion within the tick. Races between workers and the drain are out of scope. Shutdown is not modelled either: once `hashers.shutdown()` has run (Miner.java:566), `hashers.submit` in `workerFinish` (Miner.java:653) throws before `addWorker`, so a stopped miner gets no replacement worker, whereas the model adds one on any `WorkerDone` event.
- Thread interruption is not modelled. Each `InterruptedException` path that deactivates the miner is an external event.
- Clocks are inputs. Each update attempt carries one reading; the source reads the clock several times per attempt. Each worker event carries one reading too, while `workerFinish` reads the clock twice (Miner.java:645, 650) and so may stamp the replacement a few milliseconds after the scheduled time it computes.
- The hash-rate text, `lastSpeed`/`speedAccrue` and all floating-point report fields are not modelled. Those fields are efficiency ratios, wait loss and time in core. They are telemetry that feeds no decision.
- `printWorkerStats`, `printWorkerHeader`, `updateStats`, `submitStats`, `updateTime`/`submitTime` latency statistics and the callback to the UI are not modelled. They are output only.
- `php_uniqid` is not modelled. The identity suffix is an opaque input, and uniqueness comes from the counter prefix alone.
- `makeTest`/`startTest`, the profile evaluation, `Hasher`/`HasherFactory` and the hashing itself are not modelled. The miner type is fixed to pool by the constructor, so the solo branches are dead.
- The `auto` hasher-mode guard on spawning is not modelled. The mode is always `standard` after construction (Miner.java:197, 261), so the guard is dead.
- `hasherCount` is an input. It is maintained by the workers, which are not part of this model.
- 64-bit wrap-around of `long` counters is not modelled. Integers are unbounded; the counters would need centuries of hashing to overflow.
- `sessionLength` is not modelled as a changing value. It is never reassigned after initialisation, so the model takes it as a positive constant.
- Rebalancer.Contribution: doubles are modelled as exact reals. Where the exact product `h·0.5·gap` is an integer that the double computation misses from below, the program truncates to one less in magnitude: 100 hashes in 2100 ms against 5000 ms gives 28 in the program and 29 here; 55 hashes in 11000 ms gives −14 and −15.
- Rebalancer.ContributionInIntegers: the integer form is proved for the exact-real contribution only, and differs from the program by one at inputs like those above.
- Rebalancer.SumLongAtMostMinusCount: proved over exact reals under the strict hypothesis `2t < h·(t−L)`. At equality the program computes −0.9999999999999999 and truncates it to 0 (1002 hashes in 5010 ms). Under the strict hypothesis the exact value is at least `1 + 1/2t` in magnitude, so two roundings of relative size 2^-53 could only bring it back above −1 for a session time `t` beyond about 2^51 ms; the model does not exclude such times.
- Rebalancer.LongSessionsDecrease: the same exact-real scope as SumLongAtMostMinusCount.
- Miner.HashrateOncePerWindow: proved for runs of at most 301 ticks from the current supercycle, that is, within one window. Across windows it follows by splitting the run.

## Findings

| source | as written | input that shows it | evidently intended | confidence | as-written member | corrected member |
|---|---|---|---|---|---|---|
| app/src/main/java/com/programmerdan/arionum/arionum_miner/Miner.java:335-517 | `firstAttempts` is declared inside `while (active)`, so it restarts at 0 every tick. Only a skipped request keeps the inner loop going, and the 5 s sleep makes the next request unskippable, so the count never exceeds 2 and the `> 15` startup cap never fires | The pool is unreachable from startup: every tick's single request fails with an I/O error, one second or more after the previous one | After 16 failed first-run attempts the miner deactivates, since it has no valid target | not executed | Miner.TickAsWritten, Miner.AsWrittenCapUnreachable, Miner.AsWrittenNeverGivesUp | Miner.Tick, Miner.CorrectedGivesUp |
| app/src/main/java/com/programmerdan/arionum/arionum_miner/Miner.java:1013-1025 | A `JSONException` on a 200 reply is only logged. `failures` is unchanged, so the loop neither backs off nor gives up | The pool answers every submission with status 200 and a body that is not JSON | An unreadable reply counts as a failure, so the submit task backs off and ends within six passes | not executed | Submission.Run, Submission.JsonErrorsNeverEnd | Submission.StepCorrected, Submission.CorrectedAlwaysEnds |

=== FILE: base.dfy ===
/** Shared vocabulary of the miner model: optional values, the outcome of an
    HTTP exchange, Java's `(long)` cast of a double, and the decimal rendering
    of a counter (`Long.toString`) that worker identities begin with. */
module Base {

  datatype Option<+T> = None | Some(value: T)

  /** Long.MAX_VALUE, used as the "nothing found yet" best difficulty-distance. */
  const LONG_MAX: int := 0x7fff_ffff_ffff_ffff

  const HTTP_OK: int := 200
  /** The `status` value of an accepted reply. */
  const STATUS_OK: string := "ok"

  /** The decoded body of a 200 answer. `Empty` is a reply with no line to
      read (`readLine` gives null, and the parse that follows raises
      NullPointerException). `Malformed` is a line the JSON library refuses
      (or one without a `status` key): it raises JSONException. `data` is
      absent when the object has no `data` member. */
  datatype Body<+T> = Empty | Malformed | Json(status: string, data: Option<T>)

  /** What one HTTP exchange produced: an IOException somewhere between
      connecting and reading, or a status code with its body (the body is only
      read when the code is 200). */
  datatype Reply<+T> = IoError | Answered(code: int, body: Body<T>)

  /** Java's `(long) x` for a finite double `x`: truncation toward zero. */
  function TruncateTowardZero(x: real): (r: int)
    ensures 0.0 <= x ==> 0 <= r && r as real <= x < r as real + 1.0
    ensures x < 0.0 ==> r <= 0 && r as real - 1.0 < x <= r as real
  {
    if x >= 0.0 then x.Floor else -((-x).Floor)
  }

  /** For non-negative integers, truncating the exact quotient is integer division. */
  lemma TruncateQuotient(a: int, b: int)
    requires 0 <= a && 0 < b
    ensures TruncateTowardZero(a as real / b as real) == a / b
    ensures TruncateTowardZero(-(a as real / b as real)) == -(a / b)
  {
    var q := a / b;
    var x := a as real / b as real;
    assert q * b <= a < (q + 1) * b;
    assert x * b as real == a as real;
    assert (q * b) as real == q as real * b as real;
    assert ((q + 1) * b) as real == (q + 1) as real * b as real;
    DivideBounds(a as real, b as real, q as real, (q + 1) as real);
    var r := TruncateTowardZero(x);
    assert r as real <= x < r as real + 1.0;
  }

  /** Dividing `lo * b <= a < hi * b` by a positive `b`. */
  lemma DivideBounds(a: real, b: real, lo: real, hi: real)
    requires 0.0 < b && lo * b <= a < hi * b
    ensures lo <= a / b < hi
  {
    assert a / b - lo == (a - lo * b) / b;
    assert hi - a / b == (hi * b - a) / b;
  }

  predicate IsDigit(c: char) {
    '0' <= c <= '9'
  }

  predicate AllDigits(s: string) {
    forall i :: 0 <= i < |s| ==> IsDigit(s[i])
  }

  function DigitChar(d: int): (c: char)
    requires 0 <= d < 10
    ensures IsDigit(c) && c as int - '0' as int == d
  {
    ('0' as int + d) as char
  }

  function DigitValue(c: char): int
    requires IsDigit(c)
  {
    c as int - '0' as int
  }

  /** `Long.toString` of a non-negative value: decimal digits, no sign. */
  function NatToString(n: nat): (s: string)
    ensures |s| > 0 && AllDigits(s)
  {
    if n < 10 then [DigitChar(n)] else NatToString(n / 10) + [DigitChar(n % 10)]
  }

  /** Reads a run of decimal digits back as a number. */
  function ParseDigits(s: string): nat
    requires AllDigits(s)
  {
    if |s| == 0 then 0 else ParseDigits(s[..|s| - 1]) * 10 + DigitValue(s[|s| - 1])
  }

  /** Rendering a counter and reading it back gives the counter. */
  lemma {:induction false} ParseNatToString(n: nat)
    ensures ParseDigits(NatToString(n)) == n
  {
    var s := NatToString(n);
    if n >= 10 {
      assert s[..|s| - 1] == NatToString(n / 10);
      ParseNatToString(n / 10);
    }
  }
}

=== FILE: chain.dfy ===
/** The mining target the miner holds and hands to every worker: block
    descriptor, difficulty, submission limit, height and the pool's public key
    (Miner.java fields `data`, `difficulty`, `limit`, `height`, `publicKey`). */
module ChainState {
  import opened Base

  /** `limit` before the first update (Miner.java:290). */
  const DEFAULT_LIMIT: int := 240

  /** `block` and `difficulty` start as Java `null`, modelled as `None`;
      the difficulty is a BigInteger, so it is an unbounded `int`. */
  datatype Chain = Chain(
    block: Option<string>,
    difficulty: Option<int>,
    limit: int,
    height: int,
    publicKey: string)

  /** The `data` object of an "ok" info reply. */
  datatype PoolData = PoolData(
    block: string,
    difficulty: int,
    limit: int,
    publicKey: string,
    height: int)

  /** The target before any update: no block, no difficulty, the default limit,
      height 0 and the miner's own address as public key. */
  function InitialChain(address: string): Chain {
    Chain(None, None, DEFAULT_LIMIT, 0, address)
  }

  /** The target described entirely by one reply. */
  function ChainOf(d: PoolData): Chain {
    Chain(Some(d.block), Some(d.difficulty), d.limit, d.height, d.publicKey)
  }
}

=== FILE: miner.dfy ===
/** The control loop of `start` (Miner.java:314-568) as a step function over
    an explicit miner record: the update phase with its first-run state
    machine, the spawn, the `cycles`/`supercycles` wrap-around and the drain
    and rebalance on every other tick. Clocks, worker liveness, the
    identity suffix and the external `hasherCount` arrive as inputs. */
module Miner {
  import opened Base
  import opened ChainState
  import opened Stats
  import opened Rebalancer
  import opened Workers
  import opened PoolSync

  /** More failed first-run attempts than this deactivate the miner. */
  const STARTUP_ATTEMPT_CAP: nat := 15
  /** The sleep between first-run attempts, in milliseconds. */
  const STARTUP_RETRY_SLEEP: int := 5000
  const CYCLE_WRAP: int := 30
  const SUPERCYCLE_WRAP: int := 300

  /** `active`, `firstRun` and the counters of the control loop. In the
      corrected loop `firstAttempts` survives from tick to tick. */
  datatype Control = Control(
    active: bool,
    firstRun: bool,
    firstAttempts: nat,
    cycles: int,
    supercycles: int)

  datatype MinerState = MinerState(
    sync: Sync,
    control: Control,
    tuning: Tuning,
    pool: Pool,
    counters: Counters,
    maxHashers: int)

  /** What the environment supplies for one tick: the update attempts (one
      per pass of the inner loop), which workers report themselves active,
      the external `hasherCount`, the clock at spawn time and a fresh suffix. */
  datatype TickInput = TickInput(
    attempts: seq<UpdateAttempt>,
    active: set<string>,
    hasherCount: int,
    now: int,
    suffix: string)

  /** The update phase's result: the miner, the first-run attempt count, the
      optional parameters of every request actually sent, and how many
      attempts were used. */
  datatype Phase = Phase(miner: MinerState, firstAttempts: nat, queries: seq<seq<QueryKey>>, used: nat)

  datatype TickResult = TickResult(miner: MinerState, queries: seq<seq<QueryKey>>)

  /** The miner right after construction and `start`'s initialisation. */
  function Init(address: string, maxHashers: int, start: int): (r: MinerState)
    ensures Inv(r)
    ensures r.control.active && r.control.firstRun && r.control.firstAttempts == 0
    ensures r.control.cycles == 0 && r.control.supercycles == 0
    ensures r.tuning.hashesPerSession == 10 && r.tuning.sessionLength == 5000
    ensures r.pool.workers == map[] && r.pool.spawnTimes == map[] && r.pool.minted == 0 && r.pool.completed == []
    ensures r.counters == Counters(0, 0, 0, 0, 0) && r.maxHashers == maxHashers
    ensures r.sync.chain.block.None? && r.sync.chain.difficulty.None? && r.sync.chain.publicKey == address
    ensures r.sync.lastUpdate == start && r.sync.bestDL == LONG_MAX && !r.sync.sentSpeed
  {
    MinerState(InitialSync(address, start),
          Control(true, true, 0, 0, 0),
          Tuning(INITIAL_HASHES_PER_SESSION, INITIAL_SESSION_LENGTH),
          EmptyPool,
          ZeroCounters,
          maxHashers)
  }

  /** Record one task run in the miner, pushing the new target to the active
      workers when the update task called `updateWorkers`. */
  function ApplyCall(m: MinerState, call: CallResult, active: set<string>): MinerState {
    m.(sync := call.sync,
       pool := if call.broadcast then m.pool.(workers := UpdateWorkers(m.pool.workers, call.sync.chain, active))
               else m.pool)
  }

  /** The inner `while (updateLoop[0])` (Miner.java:336-526). After the first
      success the update task is fired once and not awaited. During the first run
      the result is awaited: success ends the first run, a FALSE result counts
      an attempt, an exception counts nothing; more than 15 counted attempts
      deactivate the miner. The loop goes round again only when the update task
      left `updateLoop` set, which only a skipped request does. */
  function UpdatePhase(m: MinerState, attempts: seq<UpdateAttempt>, active: set<string>, firstAttempts: nat): (r: Phase)
    ensures r.used <= |attempts|
    ensures r.miner.control.cycles == m.control.cycles
    ensures r.miner.control.supercycles == m.control.supercycles
    ensures r.miner.tuning == m.tuning && r.miner.counters == m.counters
    ensures r.miner.maxHashers == m.maxHashers
    ensures r.miner.pool.completed == m.pool.completed
    ensures r.miner.pool.minted == m.pool.minted && r.miner.pool.spawnTimes == m.pool.spawnTimes
    ensures r.miner.pool.workers.Keys == m.pool.workers.Keys
    ensures !m.control.firstRun ==> r.miner.control == m.control && r.firstAttempts == firstAttempts
    ensures r.miner.control.active != m.control.active ==>
              m.control.firstRun && r.firstAttempts > STARTUP_ATTEMPT_CAP && !r.miner.control.active
    ensures r.firstAttempts >= firstAttempts
    ensures |attempts| > 0 && m.control.firstRun ==>
              var outcome := UpdateCall(m.sync, m.control.cycles, m.control.supercycles, true, attempts[0]).outcome;
              && (outcome == Succeeded ==>
                    && !r.miner.control.firstRun && r.miner.control.active == m.control.active
                    && r.firstAttempts == firstAttempts && r.used == 1)
              && (outcome == Skipped ==> r.firstAttempts >= firstAttempts + 1)
              && (outcome == Failed ==> r.firstAttempts == firstAttempts + 1 && r.used == 1)
              && (outcome == Crashed ==> r.firstAttempts == firstAttempts && r.used == 1)
              && (outcome in {Failed, Crashed} ==>
                    && (r.miner.control.firstRun <==> r.firstAttempts <= STARTUP_ATTEMPT_CAP)
                    && (r.miner.control.active <==> m.control.active && r.firstAttempts <= STARTUP_ATTEMPT_CAP))
    decreases |attempts|
  {
    if |attempts| == 0 then
      Phase(m, firstAttempts, [], 0)
    else
      var c := m.control;
      var call := UpdateCall(m.sync, c.cycles, c.supercycles, c.firstRun, attempts[0]);
      var m1 := ApplyCall(m, call, active);
      var sent := if call.outcome == Skipped then [] else [call.query];
      if !c.firstRun then
        Phase(m1, firstAttempts, sent, 1)
      else
        var counted := if call.outcome == Skipped || call.outcome == Failed then firstAttempts + 1 else firstAttempts;
        if call.outcome == Succeeded then
          Phase(m1.(control := c.(firstRun := false)), counted, sent, 1)
        else if counted > STARTUP_ATTEMPT_CAP then
          Phase(m1.(control := c.(active := false, firstRun := false)), counted, sent, 1)
        else if call.outcome == Skipped then
          var rest := UpdatePhase(m1, attempts[1..], active, counted);
          Phase(rest.miner, rest.firstAttempts, sent + rest.queries, rest.used + 1)
        else
          Phase(m1, counted, sent, 1)
  }

  /** Whether a tick that starts with `cycles` drains and rebalances: the
      counter is first wrapped from 30 to 0, then tested for evenness. */
  predicate RefreshDue(cycles: int): (r: bool)
    ensures 0 <= cycles <= CYCLE_WRAP ==> (r <==> cycles % 2 == 0)
  {
    (if cycles == CYCLE_WRAP then 0 else cycles) % 2 == 0
  }

  /** `refreshFromWorkers`, integer part: drain the whole completed-session
      queue into the counters and rebalance the quantum over it. */
  function Refresh(m: MinerState): (r: MinerState)
    ensures r.pool.completed == []
    ensures r.counters.hashes == m.counters.hashes + Total(m.pool.completed, HashesOf)
    ensures r.counters.blockShares == m.counters.blockShares + Total(m.pool.completed, SharesOf)
    ensures r.counters.blockFinds == m.counters.blockFinds + Total(m.pool.completed, FindsOf)
    ensures r.counters.sessionSubmits == m.counters.sessionSubmits
    ensures r.counters.sessionRejects == m.counters.sessionRejects
    ensures |m.pool.completed| == 0 ==> r.tuning == m.tuning
    ensures |m.pool.completed| > 0 ==> r.tuning.hashesPerSession >= MIN_HASHES_PER_SESSION
    ensures r.tuning.sessionLength == m.tuning.sessionLength
    ensures r.sync == m.sync && r.control == m.control && r.maxHashers == m.maxHashers
    ensures r.pool == m.pool.(completed := [])
  {
    var q := m.pool.completed;
    var start := Drained(EmptyReport, m.counters);
    DrainTotals(q, start);
    var d := DrainFrom(q, start);
    m.(pool := m.pool.(completed := []),
       counters := d.counters,
       tuning := m.tuning.(hashesPerSession := Rebalance(m.tuning.hashesPerSession, m.tuning.sessionLength, q)))
  }

  /** Spawn one worker when fewer than `maxHashers` are running. */
  function SpawnIfRoom(m: MinerState, input: TickInput): (r: MinerState)
    ensures r.control == m.control && r.tuning == m.tuning && r.counters == m.counters
    ensures r.sync == m.sync && r.maxHashers == m.maxHashers
    ensures r.pool.completed == m.pool.completed
    ensures r.pool.minted == m.pool.minted + (if input.hasherCount < m.maxHashers then 1 else 0)
    ensures input.hasherCount < m.maxHashers ==>
              && r.pool.workers.Keys == m.pool.workers.Keys + {MakeId(m.pool.minted, input.suffix)}
              && r.pool.workers[MakeId(m.pool.minted, input.suffix)]
                   == Worker(m.tuning.hashesPerSession, m.tuning.sessionLength * 2, m.sync.chain)
              && r.pool.spawnTimes == m.pool.spawnTimes[MakeId(m.pool.minted, input.suffix) := input.now]
              && (Valid(m.pool) ==> forall id :: id in m.pool.workers ==> r.pool.workers[id] == m.pool.workers[id])
    ensures input.hasherCount >= m.maxHashers ==> r == m
    ensures Valid(m.pool) ==> Valid(r.pool)
  {
    if input.hasherCount < m.maxHashers
    then m.(pool := Spawn(m.pool, m.tuning, m.sync.chain, input.now, input.suffix))
    else m
  }

  /** `cycles` wraps from 30 to 0; at supercycle 300 the window restarts and
      the hash rate becomes due again. */
  function WrapCounters(m: MinerState): (r: MinerState)
    ensures r.control.cycles == (if m.control.cycles == CYCLE_WRAP then 0 else m.control.cycles)
    ensures r.control.supercycles == (if m.control.supercycles == SUPERCYCLE_WRAP then 0 else m.control.supercycles)
    ensures m.control.supercycles == SUPERCYCLE_WRAP ==> !r.sync.sentSpeed
    ensures m.control.supercycles != SUPERCYCLE_WRAP ==> r.sync == m.sync
    ensures m.control.supercycles == SUPERCYCLE_WRAP ==> r.sync == m.sync.(sentSpeed := false)
    ensures r.control.active == m.control.active && r.control.firstRun == m.control.firstRun
    ensures r.control.firstAttempts == m.control.firstAttempts
    ensures r.pool == m.pool && r.tuning == m.tuning && r.counters == m.counters
    ensures r.maxHashers == m.maxHashers
  {
    var c := m.control;
    var resetWindow := c.supercycles == SUPERCYCLE_WRAP;
    m.(control := c.(cycles := if c.cycles == CYCLE_WRAP then 0 else c.cycles,
                     supercycles := if resetWindow then 0 else c.supercycles),
       sync := if resetWindow then m.sync.(sentSpeed := false) else m.sync)
  }

  /** One pass of `while (active)` after the update phase: spawn when below
      the cap, wrap the counters, drain on even cycles, count the tick. */
  function FinishTick(m: MinerState, input: TickInput): (r: MinerState)
    ensures TickFacts(m, input, TickResult(r, []))
  {
    var wrapped := WrapCounters(SpawnIfRoom(m, input));
    var refreshed := if wrapped.control.cycles % 2 == 0 then Refresh(wrapped) else wrapped;
    assert refreshed.control == wrapped.control;
    refreshed.(control := refreshed.control.(cycles := refreshed.control.cycles + 1,
                                             supercycles := refreshed.control.supercycles + 1))
  }

  /** A tick whose update phase starts counting first-run attempts at `carried`. */
  function TickFrom(m: MinerState, input: TickInput, carried: nat): TickResult {
    var ph := UpdatePhase(m, input.attempts, input.active, carried);
    var m1 := ph.miner.(control := ph.miner.control.(firstAttempts := ph.firstAttempts));
    TickResult(FinishTick(m1, input), ph.queries)
  }

  /** The facts every tick establishes, as-written or corrected. */
  ghost predicate TickFacts(m: MinerState, input: TickInput, r: TickResult) {
    && r.miner.control.cycles == (if m.control.cycles == CYCLE_WRAP then 0 else m.control.cycles) + 1
    && r.miner.control.supercycles
         == (if m.control.supercycles == SUPERCYCLE_WRAP then 0 else m.control.supercycles) + 1
    && (0 <= m.control.cycles <= CYCLE_WRAP ==> 1 <= r.miner.control.cycles <= CYCLE_WRAP)
    && (0 <= m.control.supercycles <= SUPERCYCLE_WRAP ==> 1 <= r.miner.control.supercycles <= SUPERCYCLE_WRAP)
    && (RefreshDue(m.control.cycles) ==> r.miner.pool.completed == [])
    && (!RefreshDue(m.control.cycles) ==>
          r.miner.pool.completed == m.pool.completed
          && r.miner.tuning == m.tuning && r.miner.counters == m.counters)
    && (RefreshDue(m.control.cycles) && |m.pool.completed| > 0 ==>
          r.miner.tuning.hashesPerSession >= MIN_HASHES_PER_SESSION)
    && (m.tuning.hashesPerSession >= MIN_HASHES_PER_SESSION ==>
          r.miner.tuning.hashesPerSession >= MIN_HASHES_PER_SESSION)
    && (|m.pool.completed| == 0 ==> r.miner.tuning == m.tuning)
    && r.miner.pool.minted == m.pool.minted + (if input.hasherCount < m.maxHashers then 1 else 0)
    && (Valid(m.pool) ==> Valid(r.miner.pool))
    && r.miner.maxHashers == m.maxHashers
  }

  lemma TickFromFacts(m: MinerState, input: TickInput, carried: nat)
    ensures TickFacts(m, input, TickFrom(m, input, carried))
  {
    var ph := UpdatePhase(m, input.attempts, input.active, carried);
    var m1 := ph.miner.(control := ph.miner.control.(firstAttempts := ph.firstAttempts));
    assert m1.control.cycles == m.control.cycles && m1.control.supercycles == m.control.supercycles;
    assert m1.pool.completed == m.pool.completed && m1.tuning == m.tuning && m1.counters == m.counters;
    assert m1.maxHashers == m.maxHashers && m1.pool.minted == m.pool.minted;
    assert Valid(m.pool) ==> Valid(m1.pool) by {
      assert m1.pool.workers.Keys == m.pool.workers.Keys;
    }
    assert TickFacts(m1, input, TickResult(FinishTick(m1, input), []));
  }

  /** One tick of the control loop as written: `firstAttempts` is declared
      inside `while (active)`, so every tick starts counting from zero. */
  function TickAsWritten(m: MinerState, input: TickInput): (r: TickResult)
    ensures TickFacts(m, input, r)
    ensures !m.control.firstRun ==> r.miner.control.active == m.control.active
  {
    TickFromFacts(m, input, 0);
    TickFrom(m, input, 0)
  }

  /** One tick of the corrected control loop: the first-run attempt count is
      kept across ticks, so the startup cap bounds the total number of
      failed first-run attempts. */
  function Tick(m: MinerState, input: TickInput): (r: TickResult)
    ensures TickFacts(m, input, r)
    ensures !m.control.firstRun ==> r.miner.control.active == m.control.active
                                    && r.miner.control.firstAttempts == m.control.firstAttempts
  {
    TickFromFacts(m, input, m.control.firstAttempts);
    TickFrom(m, input, m.control.firstAttempts)
  }

  /** The clock never runs backwards, and each retry of the first run comes
      at least the 5-second sleep after the previous one. */
  ghost predicate SleepSpaced(lastUpdate: int, attempts: seq<UpdateAttempt>) {
    && (|attempts| > 0 ==> attempts[0].now >= lastUpdate)
    && (forall i :: 0 <= i < |attempts| - 1 ==> attempts[i].now + STARTUP_RETRY_SLEEP <= attempts[i + 1].now)
  }

  /** With a sane clock a first-run update phase counts at most two attempts:
      only a skipped request keeps the loop going, and after the 5-second
      sleep the next request can no longer be skipped. */
  lemma PhaseCountsAtMostTwo(m: MinerState, attempts: seq<UpdateAttempt>, active: set<string>, firstAttempts: nat)
    requires SleepSpaced(m.sync.lastUpdate, attempts)
    ensures UpdatePhase(m, attempts, active, firstAttempts).firstAttempts <= firstAttempts + 2
  {
    if |attempts| > 0 && m.control.firstRun {
      var c := m.control;
      var call := UpdateCall(m.sync, c.cycles, c.supercycles, c.firstRun, attempts[0]);
      if call.outcome == Skipped && firstAttempts + 1 <= STARTUP_ATTEMPT_CAP {
        var m1 := ApplyCall(m, call, active);
        assert m1.sync.lastUpdate == m.sync.lastUpdate;
        if |attempts| > 1 {
          assert attempts[1..][0] == attempts[1];
          var call2 := UpdateCall(m1.sync, c.cycles, c.supercycles, c.firstRun, attempts[1]);
          assert call2.outcome != Skipped;
        }
      }
    }
  }

  /** Finding, as written: the startup cap can never fire. Whatever the pool
      answers, with a sane clock no tick counts more than two first-run
      attempts, so `active` is never cleared by the cap. */
  lemma AsWrittenCapUnreachable(m: MinerState, input: TickInput)
    requires SleepSpaced(m.sync.lastUpdate, input.attempts)
    ensures TickAsWritten(m, input).miner.control.active == m.control.active
    ensures TickAsWritten(m, input).miner.control.firstAttempts <= 2
  {
    PhaseCountsAtMostTwo(m, input.attempts, input.active, 0);
  }

  /** Ticks in which the one update request fails with an I/O error, each
      sent at least half the update delay after the previous one. */
  ghost predicate FailingSyncs(lastUpdate: int, inputs: seq<TickInput>)
    decreases |inputs|
  {
    |inputs| == 0
    || (&& |inputs[0].attempts| == 1
        && inputs[0].attempts[0].reply == IoError
        && inputs[0].attempts[0].now >= lastUpdate + UPDATING_DELAY / 2
        && FailingSyncs(inputs[0].attempts[0].now, inputs[1..]))
  }

  /** The control loop from `m` over the given ticks, while `active` holds;
      it also collects the optional parameters of every request sent. */
  function RunTicks(m: MinerState, inputs: seq<TickInput>, corrected: bool): (r: TickResult)
    decreases |inputs|
  {
    if |inputs| == 0 || !m.control.active then TickResult(m, [])
    else
      var t := if corrected then Tick(m, inputs[0]) else TickAsWritten(m, inputs[0]);
      var rest := RunTicks(t.miner, inputs[1..], corrected);
      TickResult(rest.miner, t.queries + rest.queries)
  }

  /** A failing first-run tick: the attempt is counted, the request went out
      and `lastUpdate` moved to it. */
  lemma FailingFirstRunTick(m: MinerState, input: TickInput, carried: nat)
    requires m.control.firstRun && |input.attempts| == 1 && input.attempts[0].reply == IoError
    requires input.attempts[0].now >= m.sync.lastUpdate + UPDATING_DELAY / 2
    ensures var r := TickFrom(m, input, carried).miner;
            && r.control.firstAttempts == carried + 1
            && r.sync.lastUpdate == input.attempts[0].now
            && (carried + 1 > STARTUP_ATTEMPT_CAP ==> !r.control.active && !r.control.firstRun)
            && (carried + 1 <= STARTUP_ATTEMPT_CAP ==> r.control.active == m.control.active && r.control.firstRun)
  {
    var c := m.control;
    var call := UpdateCall(m.sync, c.cycles, c.supercycles, c.firstRun, input.attempts[0]);
    assert call.outcome == Failed;
    assert input.attempts[1..] == [];
  }

  /** Finding, as written: however many first-run syncs fail, the miner stays
      active and stays in its first run; it never gives up. */
  lemma {:induction false} AsWrittenNeverGivesUp(m: MinerState, inputs: seq<TickInput>)
    requires m.control.active && m.control.firstRun
    requires FailingSyncs(m.sync.lastUpdate, inputs)
    ensures RunTicks(m, inputs, false).miner.control.active
    ensures RunTicks(m, inputs, false).miner.control.firstRun
    decreases |inputs|
  {
    if |inputs| > 0 {
      FailingFirstRunTick(m, inputs[0], 0);
      AsWrittenNeverGivesUp(TickAsWritten(m, inputs[0]).miner, inputs[1..]);
    }
  }

  /** Corrected: sixteen failed first-run syncs in a row (counting those
      already behind) deactivate the miner. */
  lemma {:induction false} CorrectedGivesUp(m: MinerState, inputs: seq<TickInput>)
    requires m.control.active && m.control.firstRun
    requires m.control.firstAttempts <= STARTUP_ATTEMPT_CAP
    requires |inputs| == STARTUP_ATTEMPT_CAP + 1 - m.control.firstAttempts
    requires FailingSyncs(m.sync.lastUpdate, inputs)
    ensures !RunTicks(m, inputs, true).miner.control.active
    decreases |inputs|
  {
    FailingFirstRunTick(m, inputs[0], m.control.firstAttempts);
    var next := Tick(m, inputs[0]).miner;
    if m.control.firstAttempts < STARTUP_ATTEMPT_CAP {
      CorrectedGivesUp(next, inputs[1..]);
    } else {
      assert !next.control.active;
    }
  }

  /** How many of the requests carried the hash rate. */
  function CountHashrate(queries: seq<seq<QueryKey>>): nat {
    if |queries| == 0 then 0
    else (if HashrateKey in queries[0] then 1 else 0) + CountHashrate(queries[1..])
  }

  lemma {:induction false} CountHashrateAppend(a: seq<seq<QueryKey>>, b: seq<seq<QueryKey>>)
    ensures CountHashrate(a + b) == CountHashrate(a) + CountHashrate(b)
  {
    if |a| > 0 {
      assert (a + b)[1..] == a[1..] + b;
      CountHashrateAppend(a[1..], b);
    } else {
      assert a + b == b;
    }
  }

  function Bit(b: bool): nat {
    if b then 1 else 0
  }

  /** Within one update phase the hash rate goes out at most once, and only
      when `sentSpeed` was still clear; once set, `sentSpeed` stays set. */
  lemma {:induction false} PhaseSendsHashrateOnce(m: MinerState, attempts: seq<UpdateAttempt>, active: set<string>, firstAttempts: nat)
    ensures var ph := UpdatePhase(m, attempts, active, firstAttempts);
            CountHashrate(ph.queries) + Bit(m.sync.sentSpeed) <= Bit(ph.miner.sync.sentSpeed)
    decreases |attempts|
  {
    if |attempts| > 0 {
      var c := m.control;
      var call := UpdateCall(m.sync, c.cycles, c.supercycles, c.firstRun, attempts[0]);
      var m1 := ApplyCall(m, call, active);
      var sent := if call.outcome == Skipped then [] else [call.query];
      assert CountHashrate(sent) + Bit(m.sync.sentSpeed) <= Bit(m1.sync.sentSpeed) by {
        if call.outcome != Skipped {
          assert CountHashrate(sent) == (if HashrateKey in call.query then 1 else 0) + CountHashrate([]);
        }
      }
      if c.firstRun && call.outcome == Skipped {
        var counted := firstAttempts + 1;
        if counted <= STARTUP_ATTEMPT_CAP {
          PhaseSendsHashrateOnce(m1, attempts[1..], active, counted);
          var rest := UpdatePhase(m1, attempts[1..], active, counted);
          CountHashrateAppend(sent, rest.queries);
        }
      }
    }
  }

  /** Within one tick: the hash rate goes out at most once, only if not yet
      sent in the window, and the window survives the tick unless the tick
      started at supercycle 300. */
  lemma TickSendsHashrateOnce(m: MinerState, input: TickInput, corrected: bool)
    ensures var t := if corrected then Tick(m, input) else TickAsWritten(m, input);
            && CountHashrate(t.queries) + Bit(m.sync.sentSpeed) <= 1
            && (m.control.supercycles != SUPERCYCLE_WRAP ==>
                  CountHashrate(t.queries) + Bit(m.sync.sentSpeed) <= Bit(t.miner.sync.sentSpeed))
  {
    var carried := if corrected then m.control.firstAttempts else 0;
    PhaseSendsHashrateOnce(m, input.attempts, input.active, carried);
  }

  /** The hash rate (always together with the address, and only past
      supercycle 15) is sent at most once per 300-supercycle window: over any
      run of ticks that does not cross a window reset it goes out at most
      once, and not at all when it already went out in this window. */
  lemma {:induction false} HashrateOncePerWindow(m: MinerState, inputs: seq<TickInput>, corrected: bool)
    requires 0 <= m.control.supercycles && m.control.supercycles + |inputs| <= SUPERCYCLE_WRAP + 1
    ensures CountHashrate(RunTicks(m, inputs, corrected).queries) + Bit(m.sync.sentSpeed) <= 1
    decreases |inputs|
  {
    if |inputs| > 0 && m.control.active {
      var t := if corrected then Tick(m, inputs[0]) else TickAsWritten(m, inputs[0]);
      TickSendsHashrateOnce(m, inputs[0], corrected);
      var rest := RunTicks(t.miner, inputs[1..], corrected);
      CountHashrateAppend(t.queries, rest.queries);
      if |inputs| > 1 {
        assert t.miner.control.supercycles == m.control.supercycles + 1;
        HashrateOncePerWindow(t.miner, inputs[1..], corrected);
      }
    }
  }

  /** `workerFinish` as the miner calls it: the replacement gets the current
      quantum and target. */
  function OnWorkerFinish(m: MinerState, s: SessionStats, workerId: string, now: int, suffix: string): (r: MinerState)
    ensures r.pool.completed == m.pool.completed + [s.(scheduledTime := Scheduled(m.pool.spawnTimes, s, now))]
    ensures r.pool.minted == m.pool.minted + 1
    ensures r.pool.workers.Keys == (m.pool.workers.Keys - {workerId}) + {MakeId(m.pool.minted, suffix)}
    ensures r.pool.workers[MakeId(m.pool.minted, suffix)]
              == Worker(m.tuning.hashesPerSession, m.tuning.sessionLength * 2, m.sync.chain)
    ensures Valid(m.pool) ==>
              forall id :: id in m.pool.workers && id != workerId ==> r.pool.workers[id] == m.pool.workers[id]
    ensures r.pool.spawnTimes == (m.pool.spawnTimes - {s.id})[MakeId(m.pool.minted, suffix) := now]
    ensures Valid(m.pool) ==> Valid(r.pool)
    ensures r.control == m.control && r.tuning == m.tuning && r.counters == m.counters && r.sync == m.sync
    ensures r.maxHashers == m.maxHashers
  {
    var p := WorkerFinish(m.pool, s, workerId, m.tuning, m.sync.chain, now, suffix);
    assert p.completed == p.completed[..|m.pool.completed|] + [p.completed[|m.pool.completed|]];
    m.(pool := p)
  }

  /** A finished session's hashes, shares and finds reach the counters at the
      next drain, exactly once, on top of everything queued before it. */
  lemma FinishedSessionIsCounted(m: MinerState, s: SessionStats, workerId: string, now: int, suffix: string)
    ensures var r := Refresh(OnWorkerFinish(m, s, workerId, now, suffix));
            && r.counters.hashes == m.counters.hashes + Total(m.pool.completed, HashesOf) + s.hashes
            && r.counters.blockShares == m.counters.blockShares + Total(m.pool.completed, SharesOf) + s.shares
            && r.counters.blockFinds == m.counters.blockFinds + Total(m.pool.completed, FindsOf) + s.finds
            && r.pool.completed == []
  {
    var s1 := s.(scheduledTime := Scheduled(m.pool.spawnTimes, s, now));
    TotalAppend(m.pool.completed, s1, HashesOf);
    TotalAppend(m.pool.completed, s1, SharesOf);
    TotalAppend(m.pool.completed, s1, FindsOf);
  }

  /** What every reachable miner satisfies. */
  ghost predicate Inv(m: MinerState) {
    && Valid(m.pool)
    && m.tuning.hashesPerSession >= MIN_HASHES_PER_SESSION
    && 0 <= m.control.cycles <= CYCLE_WRAP
    && 0 <= m.control.supercycles <= SUPERCYCLE_WRAP
  }

  /** Over any run of the control loop, as written or corrected, the quantum
      stays at least 1, `cycles` stays within [0, 30], `supercycles` within
      [0, 300], and every live worker's identity was minted from a counter
      below the current one, so identities never collide. */
  lemma {:induction false} RunKeepsInv(m: MinerState, inputs: seq<TickInput>, corrected: bool)
    requires Inv(m)
    ensures Inv(RunTicks(m, inputs, corrected).miner)
    decreases |inputs|
  {
    if |inputs| > 0 && m.control.active {
      var t := if corrected then Tick(m, inputs[0]) else TickAsWritten(m, inputs[0]);
      assert Inv(t.miner);
      RunKeepsInv(t.miner, inputs[1..], corrected);
    }
  }

  /** `sessionFinish` as the miner calls it: the record is queued and the
      worker's spawn stamp is re-set. The quantum and budget it hands back
      go to the worker's own next session; the live table keeps the
      parameters the worker was created with. */
  function OnSessionFinish(m: MinerState, s: SessionStats, now: int): (r: MinerState)
    ensures r.pool.completed == m.pool.completed + [s.(scheduledTime := Scheduled(m.pool.spawnTimes, s, now))]
    ensures r.pool.workers == m.pool.workers && r.pool.minted == m.pool.minted
    ensures r.pool.spawnTimes == m.pool.spawnTimes[s.id := now]
    ensures Valid(m.pool) ==> Valid(r.pool)
    ensures r.control == m.control && r.tuning == m.tuning && r.counters == m.counters && r.sync == m.sync
  {
    var p := SessionFinish(m.pool, s, m.tuning, now).0;
    assert p.completed == p.completed[..|m.pool.completed|] + [p.completed[|m.pool.completed|]];
    m.(pool := p)
  }

  /** What can happen to the miner: a tick of the control loop, a worker
      ending its life (`workerFinish`) or a long-lived worker reporting a
      session (`sessionFinish`). The worker callbacks interleave freely with
      the ticks. */
  datatype Event =
    | TickEvent(input: TickInput)
    | WorkerDone(stats: SessionStats, workerId: string, now: int, suffix: string)
    | SessionDone(stats: SessionStats, now: int)

  /** The miner after one event; a tick only runs while `active` holds. */
  function OnEvent(m: MinerState, e: Event, corrected: bool): MinerState {
    match e
    case TickEvent(input) =>
      if !m.control.active then m
      else if corrected then Tick(m, input).miner
      else TickAsWritten(m, input).miner
    case WorkerDone(s, workerId, now, suffix) => OnWorkerFinish(m, s, workerId, now, suffix)
    case SessionDone(s, now) => OnSessionFinish(m, s, now)
  }

  function RunEvents(m: MinerState, events: seq<Event>, corrected: bool): MinerState
    decreases |events|
  {
    if |events| == 0 then m else RunEvents(OnEvent(m, events[0], corrected), events[1..], corrected)
  }

  /** The invariant survives every interleaving of ticks and worker
      callbacks, as written or corrected. */
  lemma {:induction false} EventsKeepInv(m: MinerState, events: seq<Event>, corrected: bool)
    requires Inv(m)
    ensures Inv(RunEvents(m, events, corrected))
    decreases |events|
  {
    if |events| > 0 {
      var next := OnEvent(m, events[0], corrected);
      assert Inv(next);
      EventsKeepInv(next, events[1..], corrected);
    }
  }

  /** The drain runs on every other tick: whether a tick refreshes flips from
      one tick to the next, across the wrap from 30 to 0 too. */
  lemma RefreshAlternates(m: MinerState, input: TickInput, corrected: bool)
    requires 0 <= m.control.cycles <= CYCLE_WRAP
    ensures var t := if corrected then Tick(m, input) else TickAsWritten(m, input);
            RefreshDue(t.miner.control.cycles) != RefreshDue(m.control.cycles)
  {
    var t := if corrected then Tick(m, input) else TickAsWritten(m, input);
    var c := m.control.cycles;
    assert t.miner.control.cycles == (if c == CYCLE_WRAP then 0 else c) + 1;
    NextRefreshFlips(c);
  }

  lemma NextRefreshFlips(c: int)
    requires 0 <= c <= CYCLE_WRAP
    ensures RefreshDue((if c == CYCLE_WRAP then 0 else c) + 1) != RefreshDue(c)
  {
  }
}

=== FILE: poolsync.dfy ===
/** One run of the pool-update task (the `Callable` submitted in `start`,
    Miner.java:339-489): the skip rule, the choice of query parameters, the
    failure classification and the field-by-field comparison that decides
    whether workers are told and whether `bestDL` is reset. The HTTP exchange
    itself arrives as a `Reply`; the clock as `now`. */
module PoolSync {
  import opened Base
  import opened ChainState

  const UPDATING_DELAY: int := 2000
  const UPDATING_REPORT: int := 45000
  /** Address and hash rate are re-sent once `supercycles` exceeds this. */
  const RESEND_AFTER_SUPERCYCLES: int := 15

  /** The optional query parameters of the info request (`q=info` is always there). */
  datatype QueryKey = WorkerKey | AddressKey | HashrateKey

  /** One attempt of the update task: the clock reading and what the pool answered. */
  datatype UpdateAttempt = UpdateAttempt(now: int, reply: Reply<PoolData>)

  /** The state the update task reads and writes. `skips`, `failures` and `updates`
      are counters of the current reporting window; `sentSpeed` records that
      the hash rate went out in the current 300-supercycle window. */
  datatype Sync = Sync(
    chain: Chain,
    bestDL: int,
    lastUpdate: int,
    lastReport: int,
    lastBlockUpdate: int,
    skips: nat,
    failures: nat,
    updates: nat,
    sentSpeed: bool)

  /** What the update task returned: `Boolean.FALSE` (skipped or failed), an
      exception (`Crashed`: a JSON error escapes the update task) or `Boolean.TRUE`. */
  datatype CallOutcome = Skipped | Failed | Crashed | Succeeded

  /** The update task's effect. `broadcast` is true when `updateWorkers` ran;
      `query` lists the optional parameters of the request it sent. */
  datatype CallResult = CallResult(sync: Sync, outcome: CallOutcome, broadcast: bool, query: seq<QueryKey>)

  function InitialSync(address: string, now: int): Sync {
    Sync(InitialChain(address), LONG_MAX, now, 0, 0, 0, 0, 0, false)
  }

  /** The optional query parameters (Miner.java:351-364) and the new `sentSpeed`.
      The worker name always goes; the address on the first run and whenever
      the hash rate goes; the hash rate once per window, flipping `sentSpeed`. */
  function InfoQuery(firstRun: bool, sentSpeed: bool, supercycles: int): (r: (seq<QueryKey>, bool))
    ensures |r.0| > 0 && r.0[0] == WorkerKey
    ensures AddressKey in r.0 <==> firstRun || (!sentSpeed && supercycles > 15)
    ensures HashrateKey in r.0 <==> !sentSpeed && supercycles > 15
    ensures HashrateKey in r.0 ==> AddressKey in r.0 && supercycles > RESEND_AFTER_SUPERCYCLES
    ensures r.1 <==> sentSpeed || HashrateKey in r.0
    ensures HashrateKey in r.0 ==> !sentSpeed
  {
    var due := !sentSpeed && supercycles > RESEND_AFTER_SUPERCYCLES;
    var keys := [WorkerKey]
                + (if firstRun || due then [AddressKey] else [])
                + (if due then [HashrateKey] else []);
    (keys, sentSpeed || due)
  }

  /** The "ok" path (Miner.java:405-471): the whole target is replaced by
      the reply's; `bestDL` is reset only when the block changed; workers are
      told when block, difficulty or height changed; the reporting window is
      closed when it is older than UPDATING_REPORT. */
  function ApplyOk(s: Sync, d: PoolData, now: int): (r: (Sync, bool))
    ensures r.0.chain == ChainOf(d)
    ensures s.chain.block != Some(d.block) ==> r.0.bestDL == LONG_MAX && r.0.lastBlockUpdate == now
    ensures s.chain.block == Some(d.block) ==> r.0.bestDL == s.bestDL && r.0.lastBlockUpdate == s.lastBlockUpdate
    ensures r.1 <==> s.chain.block != Some(d.block)
                     || s.chain.difficulty != Some(d.difficulty)
                     || s.chain.height != d.height
    ensures now - s.lastReport > UPDATING_REPORT ==>
              r.0.lastReport == now && r.0.skips == 0 && r.0.failures == 0 && r.0.updates == 1
    ensures now - s.lastReport <= UPDATING_REPORT ==>
              r.0.lastReport == s.lastReport && r.0.skips == s.skips
              && r.0.failures == s.failures && r.0.updates == s.updates + 1
    ensures r.0.lastUpdate == s.lastUpdate && r.0.sentSpeed == s.sentSpeed
  {
    var blockChanged := s.chain.block != Some(d.block);
    var difficultyChanged := s.chain.difficulty != Some(d.difficulty);
    var heightChanged := s.chain.height != d.height;
    var s1 := s.(chain := ChainOf(d),
                 bestDL := if blockChanged then LONG_MAX else s.bestDL,
                 lastBlockUpdate := if blockChanged then now else s.lastBlockUpdate);
    var s2 := if now - s.lastReport > UPDATING_REPORT
              then s1.(lastReport := now, skips := 0, failures := 0, updates := 0)
              else s1;
    (s2.(updates := s2.updates + 1), blockChanged || difficultyChanged || heightChanged)
  }

  /** The update task: skip, or send the request and classify the answer. */
  function UpdateCall(s: Sync, cycles: int, supercycles: int, firstRun: bool, a: UpdateAttempt): (r: CallResult)
    ensures r.outcome == Skipped <==> cycles > 0 && a.now - s.lastUpdate < 1000
    ensures r.outcome == Skipped ==> r.sync == s.(skips := s.skips + 1) && r.query == [] && !r.broadcast
    ensures r.outcome != Skipped ==>
              r.query == InfoQuery(firstRun, s.sentSpeed, supercycles).0
              && r.sync.sentSpeed == InfoQuery(firstRun, s.sentSpeed, supercycles).1
    ensures r.outcome == Failed <==>
              !(cycles > 0 && a.now - s.lastUpdate < 1000)
              && (|| a.reply.IoError?
                  || (a.reply.Answered? && a.reply.code != HTTP_OK)
                  || (a.reply.Answered? && a.reply.code == HTTP_OK && a.reply.body.Json?
                      && a.reply.body.status != STATUS_OK))
    ensures r.outcome == Succeeded <==>
              !(cycles > 0 && a.now - s.lastUpdate < 1000)
              && a.reply.Answered? && a.reply.code == HTTP_OK && a.reply.body.Json?
              && a.reply.body.status == STATUS_OK && a.reply.body.data.Some?
    ensures r.outcome in {Failed, Crashed} ==>
              r.sync == s.(lastUpdate := a.now, sentSpeed := r.sync.sentSpeed,
                           failures := if r.outcome == Failed then s.failures + 1 else s.failures)
              && !r.broadcast
    ensures r.outcome == Succeeded ==> r.sync.chain == ChainOf(a.reply.body.data.value)
    ensures r.outcome != Skipped ==> r.sync.lastUpdate == a.now
  {
    if cycles > 0 && a.now - s.lastUpdate < UPDATING_DELAY / 2 then
      CallResult(s.(skips := s.skips + 1), Skipped, false, [])
    else
      var (query, sent) := InfoQuery(firstRun, s.sentSpeed, supercycles);
      var s1 := s.(sentSpeed := sent, lastUpdate := a.now);
      match a.reply
      case IoError =>
        CallResult(s1.(failures := s.failures + 1), Failed, false, query)
      case Answered(code, body) =>
        if code != HTTP_OK then
          CallResult(s1.(failures := s.failures + 1), Failed, false, query)
        else match body
          case Empty => CallResult(s1, Crashed, false, query)
          case Malformed => CallResult(s1, Crashed, false, query)
          case Json(status, data) =>
            if status != STATUS_OK then
              CallResult(s1.(failures := s.failures + 1), Failed, false, query)
            else match data
              case None => CallResult(s1, Crashed, false, query)
              case Some(d) =>
                var (s2, tell) := ApplyOk(s1, d, a.now);
                CallResult(s2, Succeeded, tell, query)
  }

  /** An "ok" reply that only changes the limit (or the public key) is stored
      but not broadcast. */
  lemma LimitOnlyChangeNotBroadcast(s: Sync, d: PoolData, now: int)
    requires s.chain.block == Some(d.block) && s.chain.difficulty == Some(d.difficulty)
    requires s.chain.height == d.height && s.chain.limit != d.limit
    ensures ApplyOk(s, d, now).0.chain.limit == d.limit
    ensures !ApplyOk(s, d, now).1
    ensures ApplyOk(s, d, now).0.bestDL == s.bestDL
  {
  }

  /** Receiving the same "ok" reply again is idempotent on the target: no
      broadcast, no target change and no `bestDL` reset. */
  lemma IdenticalRepeat(s: Sync, cycles: int, supercycles: int, firstRun: bool,
                        a1: UpdateAttempt, a2: UpdateAttempt)
    requires UpdateCall(s, cycles, supercycles, firstRun, a1).outcome == Succeeded
    requires a2.reply == a1.reply
    ensures var r1 := UpdateCall(s, cycles, supercycles, firstRun, a1);
            var r2 := UpdateCall(r1.sync, cycles, supercycles, false, a2);
            && !r2.broadcast
            && r2.sync.chain == r1.sync.chain
            && r2.sync.bestDL == r1.sync.bestDL
  {
  }

  /** The target is never a mix of two replies: after any task it is either
      the previous target or entirely the target of the reply just received. */
  lemma TargetNeverMixed(s: Sync, cycles: int, supercycles: int, firstRun: bool, a: UpdateAttempt)
    ensures var r := UpdateCall(s, cycles, supercycles, firstRun, a);
            || r.sync.chain == s.chain
            || (a.reply.Answered? && a.reply.body.Json? && a.reply.body.data.Some?
                && r.sync.chain == ChainOf(a.reply.body.data.value))
  {
  }

  /** The first successful update of a fresh miner always tells the workers
      and resets `bestDL` (there was no block before). */
  lemma FirstUpdateBroadcasts(address: string, start: int, supercycles: int, a: UpdateAttempt)
    requires UpdateCall(InitialSync(address, start), 0, supercycles, true, a).outcome == Succeeded
    ensures UpdateCall(InitialSync(address, start), 0, supercycles, true, a).broadcast
    ensures UpdateCall(InitialSync(address, start), 0, supercycles, true, a).sync.bestDL == LONG_MAX
  {
  }
}

=== FILE: rebalancer.dfy ===
/** The session rebalancer: a proportional controller on `hashesPerSession`
    driven by how far each drained session's `hashTime` was from the target
    `sessionLength` (Miner.java:737-766). Doubles are modelled as exact reals;
    each `(long)` cast is an explicit truncation toward zero. */
module Rebalancer {
  import opened Base
  import opened Stats

  const MIN_HASHES_PER_SESSION: int := 1
  const INITIAL_HASHES_PER_SESSION: int := 10
  const INITIAL_SESSION_LENGTH: int := 5000

  /** The session length is positive: it is set once to 5000 and never reassigned. */
  type SessionLength = n: int | n > 0 witness INITIAL_SESSION_LENGTH

  /** One session's recommendation, `(long)(hashes * .5 * gap)`, with the gap
      measured against the target when the session was short and against the
      session's own time when it was long. */
  function Contribution(hashes: int, hashTime: int, sessionLength: SessionLength): (r: int)
    ensures hashTime == sessionLength ==> r == 0
    ensures 0 <= hashes && 0 <= hashTime < sessionLength ==> 0 <= r && 2 * r <= hashes
    ensures 0 <= hashes && hashTime > sessionLength ==> r <= 0 && -hashes <= 2 * r
  {
    if hashTime < sessionLength then
      TruncateTowardZero(HalfGap(hashes, sessionLength - hashTime, sessionLength))
    else if hashTime > sessionLength then
      TruncateTowardZero(-HalfGap(hashes, hashTime - sessionLength, hashTime))
    else
      0
  }

  /** `hashes * .5 * gap` with the gap `d / m`: for a gap in [0, 1] it lies
      between 0 and half the hashes. */
  function HalfGap(h: int, d: int, m: int): (x: real)
    requires m > 0
    ensures 0 <= h && 0 <= d <= m ==> 0.0 <= x <= h as real * 0.5
  {
    var gap := d as real / m as real;
    assert 0 <= d <= m ==> 0.0 <= gap <= 1.0 by {
      assert gap * m as real == d as real;
    }
    h as real * 0.5 * gap
  }

  /** The contribution in exact integer arithmetic: the exact-real
      formula truncates to `hashes·(L − t) div 2L` for a short session and to
      `−(hashes·(t − L) div 2t)` for a long one. */
  lemma ContributionInIntegers(hashes: int, hashTime: int, sessionLength: SessionLength)
    requires 0 <= hashes && 0 <= hashTime
    ensures hashTime < sessionLength ==>
      Contribution(hashes, hashTime, sessionLength)
        == (hashes * (sessionLength - hashTime)) / (2 * sessionLength)
    ensures hashTime > sessionLength ==>
      Contribution(hashes, hashTime, sessionLength)
        == -((hashes * (hashTime - sessionLength)) / (2 * hashTime))
  {
    if hashTime < sessionLength {
      ShortContributionExact(hashes, hashTime, sessionLength);
    } else if hashTime > sessionLength {
      LongContributionExact(hashes, hashTime, sessionLength);
    }
  }

  /** `h · 0.5 · (d / m)` is the exact quotient `h·d / 2m`. */
  lemma HalfScaled(h: int, d: int, m: int)
    requires m > 0
    ensures HalfGap(h, d, m) == (h * d) as real / (2 * m) as real
  {
    var gap := d as real / m as real;
    var x := h as real * 0.5 * gap;
    assert gap * m as real == d as real;
    assert x * (2 * m) as real == h as real * d as real;
    assert (h * d) as real == h as real * d as real;
  }

  lemma ShortContributionExact(hashes: int, hashTime: int, sessionLength: SessionLength)
    requires 0 <= hashes && 0 <= hashTime < sessionLength
    ensures Contribution(hashes, hashTime, sessionLength)
              == (hashes * (sessionLength - hashTime)) / (2 * sessionLength)
  {
    HalfScaled(hashes, sessionLength - hashTime, sessionLength);
    TruncateQuotient(hashes * (sessionLength - hashTime), 2 * sessionLength);
  }

  lemma LongContributionExact(hashes: int, hashTime: int, sessionLength: SessionLength)
    requires 0 <= hashes && hashTime > sessionLength
    ensures Contribution(hashes, hashTime, sessionLength)
              == -((hashes * (hashTime - sessionLength)) / (2 * hashTime))
  {
    HalfScaled(hashes, hashTime - sessionLength, hashTime);
    TruncateQuotient(hashes * (hashTime - sessionLength), 2 * hashTime);
  }

  /** A session of 1000 hashes that took 4000 ms against a 5000 ms target
      recommends 100 more hashes. */
  lemma ShortSessionExample()
    ensures Contribution(1000, 4000, 5000) == 100
  {
    ContributionInIntegers(1000, 4000, 5000);
  }

  /** Every session of the batch reports non-negative hashes and time. */
  ghost predicate Sane(batch: seq<SessionStats>) {
    forall i :: 0 <= i < |batch| ==> 0 <= batch[i].hashes && 0 <= batch[i].hashTime
  }

  /** The summed recommendation of a batch (`adjust`): it never asks for
      more than half of all the hashes the batch did, either way. */
  function SumContributions(batch: seq<SessionStats>, sessionLength: SessionLength): (r: int)
    ensures |batch| == 0 ==> r == 0
    ensures Sane(batch) ==> -Total(batch, HashesOf) <= 2 * r <= Total(batch, HashesOf)
  {
    if |batch| == 0 then 0
    else
      assert Sane(batch) ==> Sane(batch[1..]) by {
        if Sane(batch) {
          forall i | 0 <= i < |batch| - 1
            ensures 0 <= batch[1..][i].hashes && 0 <= batch[1..][i].hashTime
          {
            assert batch[1..][i] == batch[i + 1];
          }
        }
      }
      Contribution(batch[0].hashes, batch[0].hashTime, sessionLength)
      + SumContributions(batch[1..], sessionLength)
  }

  /** `(long)(adjust.doubleValue() / offload.doubleValue())`: the quotient
      truncated toward zero, not rounded and not floored. */
  function Average(total: int, samples: int): (r: int)
    requires samples > 0
    ensures r == if 0 <= total then total / samples else -((-total) / samples)
    ensures 0 <= total ==> 0 <= r && r * samples <= total
    ensures total < 0 ==> r <= 0 && total <= r * samples
  {
    var r := TruncateTowardZero(total as real / samples as real);
    ScaleTruncated(total, samples, r);
    TruncatedAverage(total, samples);
    r
  }

  lemma TruncatedAverage(total: int, samples: int)
    requires samples > 0
    ensures TruncateTowardZero(total as real / samples as real)
              == if 0 <= total then total / samples else -((-total) / samples)
  {
    if 0 <= total {
      TruncateQuotient(total, samples);
    } else {
      TruncateQuotient(-total, samples);
      assert -((-total) as real / samples as real) == total as real / samples as real;
    }
  }

  lemma ScaleTruncated(total: int, samples: int, r: int)
    requires samples > 0 && r == TruncateTowardZero(total as real / samples as real)
    ensures 0 <= total ==> 0 <= r && r * samples <= total
    ensures total < 0 ==> r <= 0 && total <= r * samples
  {
    assert r as real * samples as real == (r * samples) as real;
    assert (total as real / samples as real) * samples as real == total as real;
    if 0 <= total {
      assert r as real <= total as real / samples as real;
    } else {
      assert total as real / samples as real <= r as real;
    }
  }

  /** One rebalancing step over the sessions drained at a tick (every drained
      record counts as a sample, including those exactly on target). */
  function Rebalance(hashesPerSession: int, sessionLength: SessionLength, batch: seq<SessionStats>): (r: int)
    ensures |batch| == 0 ==> r == hashesPerSession
    ensures |batch| > 0 ==> r >= MIN_HASHES_PER_SESSION
    ensures (|batch| > 0 && hashesPerSession + Average(SumContributions(batch, sessionLength), |batch|) >= MIN_HASHES_PER_SESSION)
            ==> r == hashesPerSession + Average(SumContributions(batch, sessionLength), |batch|)
    ensures (|batch| > 0 && hashesPerSession + Average(SumContributions(batch, sessionLength), |batch|) < MIN_HASHES_PER_SESSION)
            ==> r == MIN_HASHES_PER_SESSION
  {
    if |batch| == 0 then
      hashesPerSession
    else
      var next := hashesPerSession + Average(SumContributions(batch, sessionLength), |batch|);
      if next < MIN_HASHES_PER_SESSION then MIN_HASHES_PER_SESSION else next
  }

  ghost predicate AllAtTarget(batch: seq<SessionStats>, sessionLength: int) {
    forall i :: 0 <= i < |batch| ==> batch[i].hashTime == sessionLength
  }

  lemma {:induction false} SumAtTargetIsZero(batch: seq<SessionStats>, sessionLength: SessionLength)
    requires AllAtTarget(batch, sessionLength)
    ensures SumContributions(batch, sessionLength) == 0
  {
    if |batch| > 0 {
      SumAtTargetIsZero(batch[1..], sessionLength);
    }
  }

  /** A batch whose sessions all hit the target exactly leaves the quantum unchanged. */
  lemma AtTargetUnchanged(hashesPerSession: int, sessionLength: SessionLength, batch: seq<SessionStats>)
    requires hashesPerSession >= MIN_HASHES_PER_SESSION
    requires AllAtTarget(batch, sessionLength)
    ensures Rebalance(hashesPerSession, sessionLength, batch) == hashesPerSession
  {
    SumAtTargetIsZero(batch, sessionLength);
  }

  /** Every session is bounded by `maxHashes` and has a non-negative time. */
  ghost predicate Bounded(batch: seq<SessionStats>, maxHashes: int) {
    forall i :: 0 <= i < |batch| ==> 0 <= batch[i].hashes <= maxHashes && 0 <= batch[i].hashTime
  }

  lemma {:induction false} SumBounded(batch: seq<SessionStats>, sessionLength: SessionLength, maxHashes: int)
    requires Bounded(batch, maxHashes)
    ensures -(|batch| * maxHashes) <= 2 * SumContributions(batch, sessionLength) <= |batch| * maxHashes
  {
    if |batch| > 0 {
      assert Bounded(batch[1..], maxHashes) by {
        forall i | 0 <= i < |batch| - 1 ensures 0 <= batch[1..][i].hashes <= maxHashes && 0 <= batch[1..][i].hashTime {
          assert batch[1..][i] == batch[i + 1];
        }
      }
      SumBounded(batch[1..], sessionLength, maxHashes);
      assert 0 <= batch[0].hashes <= maxHashes && 0 <= batch[0].hashTime;
      assert |batch| * maxHashes == (|batch| - 1) * maxHashes + maxHashes;
    }
  }

  /** Damping: one step moves the quantum by at most half of the largest
      session's hash count, except that the floor may lift it to 1. */
  lemma StepIsDamped(hashesPerSession: int, sessionLength: SessionLength, batch: seq<SessionStats>, maxHashes: int)
    requires |batch| > 0 && Bounded(batch, maxHashes)
    ensures 2 * (Rebalance(hashesPerSession, sessionLength, batch) - hashesPerSession) <= maxHashes
         || Rebalance(hashesPerSession, sessionLength, batch) == MIN_HASHES_PER_SESSION
    ensures 2 * (hashesPerSession - Rebalance(hashesPerSession, sessionLength, batch)) <= maxHashes
  {
    var n := |batch|;
    var sum := SumContributions(batch, sessionLength);
    SumBounded(batch, sessionLength, maxHashes);
    assert 0 <= batch[0].hashes <= maxHashes;
    AverageDamped(sum, n, maxHashes);
    var avg := Average(sum, n);
    assert Rebalance(hashesPerSession, sessionLength, batch)
      == if hashesPerSession + avg < MIN_HASHES_PER_SESSION then MIN_HASHES_PER_SESSION else hashesPerSession + avg;
  }

  /** An average of a sum bounded by `±n·H/2` is bounded by `±H/2`. */
  lemma AverageDamped(sum: int, n: int, maxHashes: int)
    requires n > 0 && 0 <= maxHashes
    requires -(n * maxHashes) <= 2 * sum <= n * maxHashes
    ensures -maxHashes <= 2 * Average(sum, n) <= maxHashes
  {
    var avg := Average(sum, n);
    assert (2 * avg) * n == 2 * (avg * n);
    assert maxHashes * n == n * maxHashes;
    assert -maxHashes * n == -(n * maxHashes);
    if 0 <= sum {
      CancelPositive(2 * avg, maxHashes, n);
    } else {
      CancelPositive(-maxHashes, 2 * avg, n);
    }
  }

  lemma CancelPositive(a: int, b: int, n: int)
    requires n > 0 && a * n <= b * n
    ensures a <= b
  {
    assert (b - a) * n >= 0;
  }

  /** Every session short enough to recommend at least one more hash. */
  ghost predicate AllShortEnough(batch: seq<SessionStats>, sessionLength: int) {
    forall i :: 0 <= i < |batch| ==>
      0 <= batch[i].hashTime < sessionLength
      && 0 <= batch[i].hashes
      && 2 * sessionLength <= batch[i].hashes * (sessionLength - batch[i].hashTime)
  }

  lemma {:induction false} SumShortAtLeastCount(batch: seq<SessionStats>, sessionLength: SessionLength)
    requires AllShortEnough(batch, sessionLength)
    ensures SumContributions(batch, sessionLength) >= |batch|
  {
    if |batch| > 0 {
      var s := batch[0];
      ContributionInIntegers(s.hashes, s.hashTime, sessionLength);
      assert Contribution(s.hashes, s.hashTime, sessionLength) >= 1;
      assert AllShortEnough(batch[1..], sessionLength) by {
        forall i | 0 <= i < |batch| - 1
          ensures 0 <= batch[1..][i].hashTime < sessionLength && 0 <= batch[1..][i].hashes
          ensures 2 * sessionLength <= batch[1..][i].hashes * (sessionLength - batch[1..][i].hashTime)
        {
          assert batch[1..][i] == batch[i + 1];
        }
      }
      SumShortAtLeastCount(batch[1..], sessionLength);
    }
  }

  /** Sessions that finish early (by enough to matter) strictly raise the quantum. */
  lemma ShortSessionsIncrease(hashesPerSession: int, sessionLength: SessionLength, batch: seq<SessionStats>)
    requires |batch| > 0 && AllShortEnough(batch, sessionLength)
    ensures Rebalance(hashesPerSession, sessionLength, batch) > hashesPerSession
  {
    SumShortAtLeastCount(batch, sessionLength);
    var sum := SumContributions(batch, sessionLength);
    TruncateQuotient(sum, |batch|);
    DivAtLeastOne(sum, |batch|);
  }

  lemma DivAtLeastOne(a: int, n: int)
    requires 0 < n <= a
    ensures a / n >= 1
  {
  }

  /** Every session long enough to recommend at least one fewer hash. */
  ghost predicate AllLongEnough(batch: seq<SessionStats>, sessionLength: int) {
    forall i :: 0 <= i < |batch| ==>
      batch[i].hashTime > sessionLength
      && 0 <= batch[i].hashes
      && 2 * batch[i].hashTime < batch[i].hashes * (batch[i].hashTime - sessionLength)
  }

  lemma {:induction false} SumLongAtMostMinusCount(batch: seq<SessionStats>, sessionLength: SessionLength)
    requires AllLongEnough(batch, sessionLength)
    ensures SumContributions(batch, sessionLength) <= -|batch|
  {
    if |batch| > 0 {
      var s := batch[0];
      ContributionInIntegers(s.hashes, s.hashTime, sessionLength);
      assert Contribution(s.hashes, s.hashTime, sessionLength) <= -1;
      assert AllLongEnough(batch[1..], sessionLength) by {
        forall i | 0 <= i < |batch| - 1
          ensures batch[1..][i].hashTime > sessionLength && 0 <= batch[1..][i].hashes
          ensures 2 * batch[1..][i].hashTime < batch[1..][i].hashes * (batch[1..][i].hashTime - sessionLength)
        {
          assert batch[1..][i] == batch[i + 1];
        }
      }
      SumLongAtMostMinusCount(batch[1..], sessionLength);
    }
  }

  /** A sum of at most minus the sample count averages to at most -1. */
  lemma AverageAtMostMinusOne(total: int, samples: int)
    requires 0 < samples && total <= -samples
    ensures Average(total, samples) <= -1
  {
    TruncateQuotient(-total, samples);
    assert -((-total) as real / samples as real) == total as real / samples as real;
    DivAtLeastOne(-total, samples);
  }

  /** Sessions that overrun (by enough to matter) strictly lower a quantum above the floor. */
  lemma LongSessionsDecrease(hashesPerSession: int, sessionLength: SessionLength, batch: seq<SessionStats>)
    requires |batch| > 0 && AllLongEnough(batch, sessionLength)
    requires hashesPerSession > MIN_HASHES_PER_SESSION
    ensures Rebalance(hashesPerSession, sessionLength, batch) < hashesPerSession
  {
    SumLongAtMostMinusCount(batch, sessionLength);
    var sum := SumContributions(batch, sessionLength);
    AverageAtMostMinusOne(sum, |batch|);
    var avg := Average(sum, |batch|);
    assert Rebalance(hashesPerSession, sessionLength, batch)
      == if hashesPerSession + avg < MIN_HASHES_PER_SESSION then MIN_HASHES_PER_SESSION else hashesPerSession + avg;
  }

  /** At half the target, a session needs at least four hashes to move the
      quantum: three hashes truncate to a zero recommendation. */
  lemma HalfTargetNeedsFourHashes()
    ensures Contribution(3, 2500, 5000) == 0
    ensures Contribution(4, 2500, 5000) == 1
  {
    ContributionInIntegers(3, 2500, 5000);
    ContributionInIntegers(4, 2500, 5000);
  }
}

=== FILE: stats.dfy ===
/** Completed-session records and the integer part of the aggregation that
    `refreshFromWorkers` performs on them: the interval report and the
    cumulative counters. */
module Stats {

  /** One completed session (HasherStats), reduced to its integer telemetry.
      `hashTime` is the session's own measured duration, `scheduledTime` the
      wall time from spawn (or previous session) to report. */
  datatype SessionStats = SessionStats(
    id: string,
    hashes: int,
    shares: int,
    finds: int,
    hashTime: int,
    scheduledTime: int)

  /** The interval aggregate (Report), integer fields only. */
  datatype Report = Report(runs: nat, hashes: int, shares: int, finds: int)

  /** The process-wide counters `hashes`, `blockShares`, `blockFinds`,
      `sessionSubmits` and `sessionRejects`. */
  datatype Counters = Counters(
    hashes: int,
    blockShares: int,
    blockFinds: int,
    sessionSubmits: int,
    sessionRejects: int)

  const EmptyReport: Report := Report(0, 0, 0, 0)

  const ZeroCounters: Counters := Counters(0, 0, 0, 0, 0)

  datatype Drained = Drained(report: Report, counters: Counters)

  function HashesOf(s: SessionStats): int { s.hashes }
  function SharesOf(s: SessionStats): int { s.shares }
  function FindsOf(s: SessionStats): int { s.finds }

  /** Sum of one field over a batch of records. */
  function Total(q: seq<SessionStats>, f: SessionStats -> int): int {
    if |q| == 0 then 0 else f(q[0]) + Total(q[1..], f)
  }

  /** Appending a record adds its field to the total. */
  lemma {:induction false} TotalAppend(q: seq<SessionStats>, s: SessionStats, f: SessionStats -> int)
    ensures Total(q + [s], f) == Total(q, f) + f(s)
  {
    if |q| > 0 {
      assert (q + [s])[1..] == q[1..] + [s];
      TotalAppend(q[1..], s, f);
    }
  }

  /** One pass of the poll loop body (Miner.java:687-703): count the run and
      fold hashes, shares and finds into both the report and the counters. */
  function Absorb(d: Drained, s: SessionStats): (r: Drained)
    ensures r.report.runs == d.report.runs + 1
    ensures r.report.hashes - d.report.hashes == r.counters.hashes - d.counters.hashes == s.hashes
    ensures r.report.shares - d.report.shares == r.counters.blockShares - d.counters.blockShares == s.shares
    ensures r.report.finds - d.report.finds == r.counters.blockFinds - d.counters.blockFinds == s.finds
    ensures r.counters.sessionSubmits == d.counters.sessionSubmits
    ensures r.counters.sessionRejects == d.counters.sessionRejects
  {
    Drained(
      Report(d.report.runs + 1, d.report.hashes + s.hashes,
             d.report.shares + s.shares, d.report.finds + s.finds),
      d.counters.(hashes := d.counters.hashes + s.hashes,
                  blockShares := d.counters.blockShares + s.shares,
                  blockFinds := d.counters.blockFinds + s.finds))
  }

  /** Polls `queue` from its head until it is empty. */
  function DrainFrom(queue: seq<SessionStats>, d: Drained): (r: Drained)
    ensures r.report.runs == d.report.runs + |queue|
    ensures r.counters.sessionSubmits == d.counters.sessionSubmits
    ensures r.counters.sessionRejects == d.counters.sessionRejects
    decreases |queue|
  {
    if |queue| == 0 then d else DrainFrom(queue[1..], Absorb(d, queue[0]))
  }

  /** Draining a queue raises the run count by the number of records and
      every summed field, in the report and in the counters alike, by exactly
      the records' total; the submit and reject counters are untouched. */
  lemma {:induction false} DrainTotals(queue: seq<SessionStats>, d: Drained)
    ensures DrainFrom(queue, d) == Drained(
      Report(d.report.runs + |queue|,
             d.report.hashes + Total(queue, HashesOf),
             d.report.shares + Total(queue, SharesOf),
             d.report.finds + Total(queue, FindsOf)),
      d.counters.(hashes := d.counters.hashes + Total(queue, HashesOf),
                  blockShares := d.counters.blockShares + Total(queue, SharesOf),
                  blockFinds := d.counters.blockFinds + Total(queue, FindsOf)))
  {
    if |queue| > 0 {
      DrainTotals(queue[1..], Absorb(d, queue[0]));
    }
  }

  /** Draining two batches one after the other is draining their concatenation. */
  lemma {:induction false} DrainConcat(a: seq<SessionStats>, b: seq<SessionStats>, d: Drained)
    ensures DrainFrom(a + b, d) == DrainFrom(b, DrainFrom(a, d))
  {
    if |a| > 0 {
      assert (a + b)[1..] == a[1..] + b;
      DrainConcat(a[1..], b, Absorb(d, a[0]));
    } else {
      assert a + b == b;
    }
  }
}

=== FILE: submission.dfy ===
/** The submission task's retry loop (`submit`, Miner.java:936-1030): each
    pass posts the solution and classifies what came back. Transport failures
    are retried with a linear backoff; the pool's verdict ends the submit task; the
    task gives up once its local failure count exceeds five. */
module Submission {
  import opened Base

  const GIVE_UP_AFTER: nat := 5
  const BACKOFF_STEP: nat := 50

  /** One pass of the loop: the request could not even be written (an
      IOException before the counter at line 981 is reached), or it was sent
      and something came back (an IOException while reading counts as `IoError`). */
  datatype Attempt = WriteFailed | Sent(reply: Reply<()>)

  /** The telemetry event the submit task emits: retry count and verdict. */
  datatype Discovery = Discovery(retries: nat, accepted: bool)

  /** The submit task's state: its local `failures`, how many passes ran, how many
      requests were sent (the increments of `sessionSubmits`), how many
      rejects it counted (the increments of `sessionRejects`), the sleeps it
      took, the discovery events it emitted, whether the loop has ended, and
      whether it ended by an exception that escapes the submit task. */
  datatype SubmitState = SubmitState(
    failures: nat,
    passes: nat,
    submits: nat,
    rejects: nat,
    backoff: seq<nat>,
    discoveries: seq<Discovery>,
    done: bool,
    aborted: bool)

  const Start: SubmitState := SubmitState(0, 0, 0, 0, [], [], false, false)

  /** Connection refused, I/O error or a non-200 status. */
  predicate IsTransportFailure(a: Attempt) {
    a.WriteFailed? || a.reply.IoError? || (a.reply.Answered? && a.reply.code != HTTP_OK)
  }

  /** A 200 whose body the JSON library refuses. */
  predicate IsJsonError(a: Attempt) {
    a.Sent? && a.reply.Answered? && a.reply.code == HTTP_OK && a.reply.body.Malformed?
  }

  /** A 200 with nothing to read: the NullPointerException it raises is
      caught by neither handler, so the submit task dies on the spot. */
  predicate IsEmptyBody(a: Attempt) {
    a.Sent? && a.reply.Answered? && a.reply.code == HTTP_OK && a.reply.body.Empty?
  }

  /** The pool's verdict: a 200 with a readable status. */
  predicate IsVerdict(a: Attempt) {
    a.Sent? && a.reply.Answered? && a.reply.code == HTTP_OK && a.reply.body.Json?
  }

  /** The tail of every pass (Miner.java:1016-1025): give up and count one
      reject past five failures, otherwise sleep 50 ms per failure so far. */
  function AfterPass(st: SubmitState): (r: SubmitState)
    ensures st.failures > GIVE_UP_AFTER ==>
              r.done && r.rejects == st.rejects + 1
              && r.discoveries == st.discoveries + [Discovery(st.failures, false)]
              && r.backoff == st.backoff
    ensures st.failures <= GIVE_UP_AFTER ==>
              r.done == st.done && r.rejects == st.rejects && r.discoveries == st.discoveries
              && r.backoff == st.backoff + (if st.failures > 0 then [BACKOFF_STEP * st.failures] else [])
    ensures r.failures == st.failures && r.passes == st.passes && r.submits == st.submits
    ensures r.aborted == st.aborted
  {
    if st.failures > GIVE_UP_AFTER then
      st.(done := true, rejects := st.rejects + 1,
          discoveries := st.discoveries + [Discovery(st.failures, false)])
    else if st.failures > 0 then
      st.(backoff := st.backoff + [BACKOFF_STEP * st.failures])
    else
      st
  }

  /** The body of a pass up to the give-up check, as written: a JSON error is
      neither a failure nor an end; an empty reply ends the submit task
      without a verdict. */
  function Classify(st: SubmitState, a: Attempt): (r: SubmitState)
    ensures r.passes == st.passes + 1
    ensures r.submits == st.submits + (if a.Sent? then 1 else 0)
    ensures r.failures == st.failures + (if IsTransportFailure(a) then 1 else 0)
    ensures r.backoff == st.backoff
    ensures IsVerdict(a) ==>
              r.done && r.aborted == st.aborted
              && r.discoveries == st.discoveries + [Discovery(st.failures, a.reply.body.status == STATUS_OK)]
              && r.rejects == st.rejects + (if a.reply.body.status == STATUS_OK then 0 else 1)
    ensures IsEmptyBody(a) ==> r.done && r.aborted && r.rejects == st.rejects && r.discoveries == st.discoveries
    ensures !IsVerdict(a) && !IsEmptyBody(a) ==>
              r.done == st.done && r.aborted == st.aborted
              && r.rejects == st.rejects && r.discoveries == st.discoveries
  {
    var sent := st.(passes := st.passes + 1,
                    submits := if a.Sent? then st.submits + 1 else st.submits);
    if IsEmptyBody(a) then
      sent.(done := true, aborted := true)
    else if IsTransportFailure(a) then
      sent.(failures := st.failures + 1)
    else if IsVerdict(a) then
      var ok := a.reply.body.status == STATUS_OK;
      sent.(done := true,
            rejects := if ok then st.rejects else st.rejects + 1,
            discoveries := st.discoveries + [Discovery(st.failures, ok)])
    else
      sent
  }

  /** One pass of the loop as written. An empty reply escapes before the
      give-up check, so it neither sleeps nor counts a reject. */
  function Step(st: SubmitState, a: Attempt): (r: SubmitState)
    requires !st.done
    ensures r.passes == st.passes + 1
    ensures r.submits == st.submits + (if a.Sent? then 1 else 0)
    ensures IsTransportFailure(a) ==> r.failures == st.failures + 1
    ensures !IsTransportFailure(a) ==> r.failures == st.failures
    ensures IsJsonError(a) && st.failures <= GIVE_UP_AFTER ==> !r.done && r.rejects == st.rejects
    ensures st.failures <= GIVE_UP_AFTER && r.failures > GIVE_UP_AFTER ==>
              r.done && r.rejects == st.rejects + 1
              && r.discoveries == st.discoveries + [Discovery(r.failures, false)]
    ensures !IsEmptyBody(a) && r.failures <= GIVE_UP_AFTER ==>
              r.backoff == st.backoff + (if r.failures > 0 then [BACKOFF_STEP * r.failures] else [])
    ensures IsEmptyBody(a) ==>
              r.done && r.aborted && r.rejects == st.rejects
              && r.discoveries == st.discoveries && r.backoff == st.backoff
  {
    var c := Classify(st, a);
    if IsEmptyBody(a) then c else AfterPass(c)
  }

  /** The loop over the passes the network supplies; it stops at the first
      pass that ends the submit task or when the supply runs out. */
  function Run(st: SubmitState, attempts: seq<Attempt>): (r: SubmitState)
    ensures st.done ==> r == st
    decreases |attempts|
  {
    if st.done || |attempts| == 0 then st else Run(Step(st, attempts[0]), attempts[1..])
  }

  /** What holds between passes of the loop: before the end at most five
      failures, no reject and no event; after an escaping exception still no
      reject and no event; at any other end exactly one event, whose retry
      count is the failure count, and one reject exactly when that event is
      not an acceptance. The sleeps taken so far grow from 50 to at most
      250 ms. Sends never outnumber passes. */
  ghost predicate Inv(st: SubmitState) {
    && (!st.done ==> st.failures <= GIVE_UP_AFTER && st.rejects == 0 && st.discoveries == [] && !st.aborted)
    && (st.aborted ==> st.done && st.failures <= GIVE_UP_AFTER && st.rejects == 0 && st.discoveries == [])
    && (st.done && !st.aborted ==>
          |st.discoveries| == 1 && st.discoveries[0].retries == st.failures
          && st.failures <= GIVE_UP_AFTER + 1
          && (st.rejects == 1 <==> !st.discoveries[0].accepted)
          && st.rejects <= 1)
    && (forall i :: 0 <= i < |st.backoff| ==> BACKOFF_STEP <= st.backoff[i] <= BACKOFF_STEP * st.failures)
    && (forall i, j :: 0 <= i < j < |st.backoff| ==> st.backoff[i] <= st.backoff[j])
    && st.submits <= st.passes
  }

  lemma StepKeepsInv(st: SubmitState, a: Attempt)
    requires Inv(st) && !st.done
    ensures Inv(Step(st, a))
  {
  }

  lemma {:induction false} RunKeepsInv(st: SubmitState, attempts: seq<Attempt>)
    requires Inv(st)
    ensures Inv(Run(st, attempts))
    decreases |attempts|
  {
    if !st.done && |attempts| > 0 {
      StepKeepsInv(st, attempts[0]);
      RunKeepsInv(Step(st, attempts[0]), attempts[1..]);
    }
  }

  /** Whatever the network does, a submission counts at most one reject and
      emits at most one event. When it ends normally it has emitted exactly
      one, a reject is counted exactly when that event is not an acceptance,
      and no more than six failures were seen; when an empty reply kills it,
      it has emitted nothing and counted no reject. */
  lemma SubmitOutcome(attempts: seq<Attempt>)
    ensures var r := Run(Start, attempts);
            && r.rejects <= 1
            && |r.discoveries| <= 1
            && (r.done && !r.aborted <==> |r.discoveries| == 1)
            && (r.aborted ==> r.done && r.rejects == 0 && r.discoveries == [])
            && (r.done && !r.aborted ==>
                  (r.rejects == 1 <==> !r.discoveries[0].accepted)
                  && r.discoveries[0].retries == r.failures
                  && r.failures <= GIVE_UP_AFTER + 1)
  {
    RunKeepsInv(Start, attempts);
  }

  /** The first verdict after `k <= 5` transport failures ends the submit task with
      that verdict and `retries == k`; an "ok" is accepted without a reject,
      anything else is rejected once. */
  lemma VerdictEnds(st: SubmitState, a: Attempt)
    requires !st.done && st.failures <= GIVE_UP_AFTER && IsVerdict(a)
    ensures var r := Step(st, a);
            && r.done
            && r.failures == st.failures
            && r.discoveries == st.discoveries + [Discovery(st.failures, a.reply.body.status == STATUS_OK)]
            && r.rejects == st.rejects + (if a.reply.body.status == STATUS_OK then 0 else 1)
  {
  }

  /** A JSON error on a 200 changes neither the failure count nor termination. */
  lemma JsonErrorNeutral(st: SubmitState, a: Attempt)
    requires !st.done && st.failures <= GIVE_UP_AFTER && IsJsonError(a)
    ensures Step(st, a).failures == st.failures && !Step(st, a).done
  {
  }

  /** A transport failure below the cap is retried after a sleep of 50 ms
      per failure so far. */
  lemma TransportRetry(st: SubmitState, a: Attempt)
    requires !st.done && st.failures < GIVE_UP_AFTER && IsTransportFailure(a)
    ensures var r := Step(st, a);
            && !r.done && r.failures == st.failures + 1 && r.passes == st.passes + 1
            && r.rejects == st.rejects && r.discoveries == st.discoveries
            && r.backoff == st.backoff + [BACKOFF_STEP * (st.failures + 1)]
  {
  }

  /** Six transport failures in a row: the submit task gives up on the sixth, counts
      exactly one reject, reports `retries == 6`, and slept 50, 100, 150, 200
      and 250 ms in between. */
  lemma GivesUpOnSixthFailure(attempts: seq<Attempt>)
    requires |attempts| == 6
    requires forall i :: 0 <= i < 6 ==> IsTransportFailure(attempts[i])
    ensures var r := Run(Start, attempts);
            && r.done && r.failures == 6 && r.rejects == 1 && r.passes == 6
            && r.discoveries == [Discovery(6, false)]
            && r.backoff == [50, 100, 150, 200, 250]
  {
    var s1 := Step(Start, attempts[0]);
    TransportRetry(Start, attempts[0]);
    var s2 := Step(s1, attempts[1]);
    TransportRetry(s1, attempts[1]);
    var s3 := Step(s2, attempts[2]);
    TransportRetry(s2, attempts[2]);
    var s4 := Step(s3, attempts[3]);
    TransportRetry(s3, attempts[3]);
    var s5 := Step(s4, attempts[4]);
    TransportRetry(s4, attempts[4]);
    assert s5.failures == 5 && s5.backoff == [50, 100, 150, 200, 250];
    var s6 := Step(s5, attempts[5]);
    assert s6.done && s6.rejects == 1 && s6.discoveries == [Discovery(6, false)];
    assert Run(Start, attempts) == Run(s1, attempts[1..]);
    assert Run(s1, attempts[1..]) == Run(s2, attempts[2..]);
    assert Run(s2, attempts[2..]) == Run(s3, attempts[3..]);
    assert Run(s3, attempts[3..]) == Run(s4, attempts[4..]);
    assert Run(s4, attempts[4..]) == Run(s5, attempts[5..]);
    assert Run(s5, attempts[5..]) == Run(s6, attempts[6..]);
  }

  /** As written, a pool that keeps answering 200 with an unreadable body is
      asked again and again: after any number of such passes the submit task has not
      ended, has counted no failure, slept never, and has sent every pass. */
  lemma {:induction false} JsonErrorsNeverEnd(n: nat)
    ensures var r := Run(Start, seq(n, _ => Sent(Answered(HTTP_OK, Malformed))));
            && !r.done && r.failures == 0 && r.submits == n && r.passes == n && r.backoff == []
  {
    if n > 0 {
      var jsonErrors := seq(n, _ => Sent(Answered(HTTP_OK, Malformed)));
      var shorter := seq(n - 1, _ => Sent(Answered(HTTP_OK, Malformed)));
      JsonErrorsNeverEnd(n - 1);
      RunSplitLast(Start, shorter, Sent(Answered(HTTP_OK, Malformed)));
      assert jsonErrors == shorter + [Sent(Answered(HTTP_OK, Malformed))];
    }
  }

  /** Running one more pass after a prefix is running the prefix and then
      stepping, when the prefix did not end the submit task. */
  lemma {:induction false} RunSplitLast(st: SubmitState, prefix: seq<Attempt>, a: Attempt)
    ensures !Run(st, prefix).done ==> Run(st, prefix + [a]) == Step(Run(st, prefix), a)
    ensures Run(st, prefix).done ==> Run(st, prefix + [a]) == Run(st, prefix)
    decreases |prefix|
  {
    if st.done {
    } else if |prefix| == 0 {
      assert prefix + [a] == [a];
      assert Run(Step(st, a), []) == Step(st, a);
    } else {
      assert (prefix + [a])[1..] == prefix[1..] + [a];
      RunSplitLast(Step(st, prefix[0]), prefix[1..], a);
    }
  }

  /** Corrected pass: an unreadable 200 body is a failure like a transport
      failure, so every pass either ends the submit task or counts a failure. */
  function StepCorrected(st: SubmitState, a: Attempt): (r: SubmitState)
    requires !st.done
    ensures r.passes == st.passes + 1
    ensures r.done || r.failures == st.failures + 1
  {
    if IsJsonError(a) then
      AfterPass(st.(passes := st.passes + 1, submits := st.submits + 1, failures := st.failures + 1))
    else
      Step(st, a)
  }

  function RunCorrected(st: SubmitState, attempts: seq<Attempt>): (r: SubmitState)
    ensures st.done ==> r == st
    decreases |attempts|
  {
    if st.done || |attempts| == 0 then st else RunCorrected(StepCorrected(st, attempts[0]), attempts[1..])
  }

  /** With the correction the submit task always ends within six passes, whatever
      the pool answers. */
  lemma {:induction false} CorrectedAlwaysEnds(st: SubmitState, attempts: seq<Attempt>)
    requires !st.done && st.failures <= GIVE_UP_AFTER
    requires |attempts| >= GIVE_UP_AFTER + 1 - st.failures
    ensures RunCorrected(st, attempts).done
    ensures RunCorrected(st, attempts).passes <= st.passes + GIVE_UP_AFTER + 1 - st.failures
    decreases GIVE_UP_AFTER + 1 - st.failures
  {
    var next := StepCorrected(st, attempts[0]);
    if !next.done {
      assert next.failures == st.failures + 1;
      assert next.failures <= GIVE_UP_AFTER;
      CorrectedAlwaysEnds(next, attempts[1..]);
    }
  }
}

=== FILE: workers.dfy ===
/** The worker pool manager's bookkeeping: the live `workers` table, the
    spawn-time side table `deadWorkerLives`, the identity counter
    `deadWorkers` and the completed-session queue `deadWorkerSociety`
    (Miner.java:529-536, 570-576, 581-587, 641-671). A Hasher is represented
    by the parameters it was handed; running it is not part of this model. */
module Workers {
  import opened Base
  import opened ChainState
  import opened Stats
  import opened Rebalancer

  /** The tuning a worker receives: hashes per session and the session length
      (a new session's soft budget is twice the length). */
  datatype Tuning = Tuning(hashesPerSession: int, sessionLength: SessionLength)

  /** The parameters a live worker was created with (its quantum and time
      budget) and the latest target pushed to it. */
  datatype Worker = Worker(hashesPerSession: int, sessionBudget: int, chain: Chain)

  /** `workers` keyed by identity; `spawnTimes` is `deadWorkerLives`;
      `minted` is the `deadWorkers` counter (identities handed out so far);
      `completed` is the queue of session records awaiting the next drain. */
  datatype Pool = Pool(
    workers: map<string, Worker>,
    spawnTimes: map<string, int>,
    minted: nat,
    completed: seq<SessionStats>)

  const EmptyPool: Pool := Pool(map[], map[], 0, [])

  /** A fresh identity: the counter, a `]`, then an opaque unique suffix. */
  function MakeId(counter: nat, suffix: string): (r: string)
    ensures |r| == |NatToString(counter)| + 1 + |suffix|
    ensures AllDigits(r[..|NatToString(counter)|])
    ensures r[|NatToString(counter)|] == ']' && r[|NatToString(counter)| + 1..] == suffix
  {
    var digits := NatToString(counter);
    var r := digits + "]" + suffix;
    assert r[..|digits|] == digits;
    assert r[|digits| + 1..] == suffix;
    r
  }

  /** Position of the first `c` in `s`. */
  function IndexOf(s: string, c: char): (r: Option<nat>)
    ensures r.Some? ==> r.value < |s| && s[r.value] == c
                        && forall j :: 0 <= j < r.value ==> s[j] != c
    ensures r.None? ==> forall j :: 0 <= j < |s| ==> s[j] != c
  {
    if |s| == 0 then None
    else if s[0] == c then Some(0)
    else match IndexOf(s[1..], c)
      case None => None
      case Some(k) => Some(k + 1)
  }

  /** The counter an identity was minted with: the digits before its first `]`. */
  function CounterOf(id: string): Option<nat> {
    match IndexOf(id, ']')
    case None => None
    case Some(k) => if 0 < k && AllDigits(id[..k]) then Some(ParseDigits(id[..k])) else None
  }

  /** An identity gives back the counter it was built from, whatever the suffix. */
  lemma CounterOfMakeId(counter: nat, suffix: string)
    ensures CounterOf(MakeId(counter, suffix)) == Some(counter)
  {
    var digits := NatToString(counter);
    var id := MakeId(counter, suffix);
    assert id[..|digits|] == digits;
    assert id[|digits|] == ']';
    forall j | 0 <= j < |digits| ensures id[j] != ']' {
      assert id[j] == digits[j];
      assert IsDigit(digits[j]);
    }
    var k := IndexOf(id, ']');
    assert k == Some(|digits|);
    ParseNatToString(counter);
  }

  /** Identities minted from different counters never collide. */
  lemma MakeIdInjective(c1: nat, s1: string, c2: nat, s2: string)
    requires c1 != c2
    ensures MakeId(c1, s1) != MakeId(c2, s2)
  {
    CounterOfMakeId(c1, s1);
    CounterOfMakeId(c2, s2);
  }

  /** Every live worker carries an identity minted before the current counter. */
  ghost predicate Valid(p: Pool) {
    forall id :: id in p.workers ==> CounterOf(id).Some? && CounterOf(id).value < p.minted
  }

  /** `addWorker`: the handle is stored under its identity, replacing any
      previous one; every other entry is kept. */
  function AddWorker(workers: map<string, Worker>, id: string, w: Worker): (r: map<string, Worker>)
    ensures r.Keys == workers.Keys + {id}
    ensures r[id] == w
    ensures forall k :: k in workers && k != id ==> r[k] == workers[k]
  {
    workers[id := w]
  }

  /** `releaseWorker`: the identity is dropped (a no-op when absent); every
      other entry is kept. */
  function ReleaseWorker(workers: map<string, Worker>, id: string): (r: map<string, Worker>)
    ensures r.Keys == workers.Keys - {id}
    ensures forall k :: k in r ==> r[k] == workers[k]
  {
    workers - {id}
  }

  /** `updateWorkers`: every live worker reporting itself active receives the
      new target; inactive ones keep theirs; nobody is added or removed. */
  function UpdateWorkers(workers: map<string, Worker>, chain: Chain, active: set<string>): (r: map<string, Worker>)
    ensures r.Keys == workers.Keys
    ensures forall k :: k in r && k in active ==> r[k].chain == chain
    ensures forall k :: k in r ==> r[k].hashesPerSession == workers[k].hashesPerSession
                                   && r[k].sessionBudget == workers[k].sessionBudget
    ensures forall k :: k in r && k !in active ==> r[k] == workers[k]
  {
    map k | k in workers :: if k in active then workers[k].(chain := chain) else workers[k]
  }

  /** Spawning (Miner.java:530-535 and 649-654): mint an identity from the
      counter and the fresh suffix, stamp its spawn time, create the worker
      with the current quantum, a budget of twice the session length and the
      current target, and add it to the live table. */
  function Spawn(p: Pool, tuning: Tuning, chain: Chain, now: int, suffix: string): (r: Pool)
    ensures r.minted == p.minted + 1
    ensures CounterOf(MakeId(p.minted, suffix)) == Some(p.minted)
    ensures r.workers.Keys == p.workers.Keys + {MakeId(p.minted, suffix)}
    ensures r.workers[MakeId(p.minted, suffix)]
              == Worker(tuning.hashesPerSession, tuning.sessionLength * 2, chain)
    ensures r.spawnTimes == p.spawnTimes[MakeId(p.minted, suffix) := now]
    ensures r.completed == p.completed
    ensures Valid(p) ==> Valid(r)
    ensures Valid(p) ==> MakeId(p.minted, suffix) !in p.workers
                         && |r.workers| == |p.workers| + 1
                         && forall id :: id in p.workers ==> r.workers[id] == p.workers[id]
  {
    var id := MakeId(p.minted, suffix);
    CounterOfMakeId(p.minted, suffix);
    var w := Worker(tuning.hashesPerSession, tuning.sessionLength * 2, chain);
    var r := Pool(AddWorker(p.workers, id, w), p.spawnTimes[id := now], p.minted + 1, p.completed);
    assert Valid(p) ==> id !in p.workers;
    r
  }

  /** The wall time a finished session was scheduled for: from the recorded
      spawn time to now, or the session's own hash time when no spawn time
      is on record. */
  function Scheduled(spawnTimes: map<string, int>, s: SessionStats, now: int): (r: int)
    ensures s.id in spawnTimes ==> r + spawnTimes[s.id] == now
    ensures s.id !in spawnTimes ==> r == s.hashTime
    ensures (s.id in spawnTimes ==> spawnTimes[s.id] <= now) && 0 <= s.hashTime ==> 0 <= r
  {
    if s.id in spawnTimes then now - spawnTimes[s.id] else s.hashTime
  }

  /** `workerFinish`: queue the record (with its scheduled time), drop the
      finished worker, consume its spawn-time entry, and spawn exactly one
      replacement under a freshly minted identity. The record's `id` and the
      worker's identity are separate inputs, as in the source. */
  function WorkerFinish(p: Pool, s: SessionStats, workerId: string, tuning: Tuning, chain: Chain,
                        now: int, suffix: string): (r: Pool)
    ensures |r.completed| == |p.completed| + 1 && r.completed[..|p.completed|] == p.completed
    ensures s.id in p.spawnTimes ==> r.completed[|p.completed|] == s.(scheduledTime := now - p.spawnTimes[s.id])
    ensures s.id !in p.spawnTimes ==> r.completed[|p.completed|] == s.(scheduledTime := s.hashTime)
    ensures r.workers.Keys == (p.workers.Keys - {workerId}) + {MakeId(p.minted, suffix)}
    ensures r.workers[MakeId(p.minted, suffix)]
              == Worker(tuning.hashesPerSession, tuning.sessionLength * 2, chain)
    ensures Valid(p) ==> forall id :: id in p.workers && id != workerId ==> r.workers[id] == p.workers[id]
    ensures r.spawnTimes == (p.spawnTimes - {s.id})[MakeId(p.minted, suffix) := now]
    ensures r.minted == p.minted + 1
    ensures Valid(p) ==> Valid(r)
    ensures Valid(p) ==>
      && MakeId(p.minted, suffix) !in p.workers
      && CounterOf(MakeId(p.minted, suffix)) == Some(p.minted)
      && (forall id :: id in p.workers ==> CounterOf(id).value < p.minted)
      && |r.workers| == |p.workers| - (if workerId in p.workers then 1 else 0) + 1
  {
    var released := Retire(p, s, workerId, now);
    var r := Spawn(released, tuning, chain, now, suffix);
    assert Valid(p) ==> forall id :: id in p.workers && id != workerId ==> r.workers[id] == p.workers[id] by {
      if Valid(p) {
        forall id | id in p.workers && id != workerId
          ensures r.workers[id] == p.workers[id]
        {
          assert id in released.workers;
        }
      }
    }
    r
  }

  /** The first half of `workerFinish`: queue the record, drop the worker
      and consume its spawn stamp. */
  function Retire(p: Pool, s: SessionStats, workerId: string, now: int): (r: Pool)
    ensures r.completed == p.completed + [s.(scheduledTime := Scheduled(p.spawnTimes, s, now))]
    ensures r.workers.Keys == p.workers.Keys - {workerId}
    ensures forall id :: id in r.workers ==> r.workers[id] == p.workers[id]
    ensures r.spawnTimes == p.spawnTimes - {s.id} && r.minted == p.minted
    ensures Valid(p) ==> Valid(r)
  {
    p.(workers := ReleaseWorker(p.workers, workerId),
       spawnTimes := p.spawnTimes - {s.id},
       completed := p.completed + [s.(scheduledTime := Scheduled(p.spawnTimes, s, now))])
  }

  /** `sessionFinish`: a long-lived worker reports a session without ending.
      The record is queued, the worker's spawn time is re-stamped to now
      (its previous stamp, when present, gives the scheduled time), the live
      table is untouched, and the worker is handed the current quantum and
      twice the session length for its next session. */
  function SessionFinish(p: Pool, s: SessionStats, tuning: Tuning, now: int): (r: (Pool, (int, int)))
    ensures r.0.workers == p.workers && r.0.minted == p.minted
    ensures r.0.spawnTimes == p.spawnTimes[s.id := now]
    ensures |r.0.completed| == |p.completed| + 1 && r.0.completed[..|p.completed|] == p.completed
    ensures s.id in p.spawnTimes ==> r.0.completed[|p.completed|] == s.(scheduledTime := now - p.spawnTimes[s.id])
    ensures s.id !in p.spawnTimes ==> r.0.completed[|p.completed|] == s.(scheduledTime := s.hashTime)
    ensures r.1 == (tuning.hashesPerSession, tuning.sessionLength * 2)
    ensures Valid(p) ==> Valid(r.0)
  {
    var queued := p.completed + [s.(scheduledTime := Scheduled(p.spawnTimes, s, now))];
    (p.(spawnTimes := p.spawnTimes[s.id := now], completed := queued),
     (tuning.hashesPerSession, tuning.sessionLength * 2))
  }
}
